=== FILE: README.md ===
# DiscordiaVPN for Android — verified model of the core

DiscordiaVPN is a Kivy app. It points Android's DNS at a chosen resolver, either through its own
`VpnService` or, on a desktop, through a simulated connection. This project models in Dafny the
parts of it that hold logic:

- **The packet path of `DiscordiaVPNService`** (Java):
  - the classifier that decides whether a TUN packet is an IPv4/UDP datagram to port 53
    (RFC 791 section 3.1, RFC 768, RFC 1035 section 4.2.1);
  - the RFC 1071 Internet checksum;
  - the synthesis of the reply datagram written back to the TUN device.
- **The service lifecycle** (Java): reading the start intent with its defaults, choosing the
  interface's DNS servers and routes, the `isRunning` guard, and `stopVpn`.
- **The settings store** of `main.py`: defaults overlaid by the loaded file, `get` and `set`.
- **The session controller `VPNEngine`**: connected state, mode, connect timestamp, and the two
  cumulative counters kept in the settings. It also covers the `HH:MM:SS` uptime text.
- **The settings screen's logic**: blank DNS fields fall back to the defaults, and the hours and
  minutes of the statistics label are computed from the stored total.
- **`BandwidthGraph.push`**: a 60-sample sliding window.

Modules, one concept each:

| file | module | models |
|---|---|---|
| options.dfy | `Options` | nullable values / `None` |
| bytes.dfy | `Bytes` | octets, big-endian 16-bit fields |
| decimal.dfy | `Decimal` | `str(n)`, `format(n, "02d")` and reading digits back |
| checksum.dfy | `InternetChecksum` | `calculateChecksum` and RFC 1071 |
| dns_packets.dfy | `DnsPackets`, `DnsReplies` | `isDnsPacket`, the reply builder, what a reply means |
| vpn_service.dfy | `VpnService` | `onStartCommand`, `startVpn`, `stopVpn`, `onDestroy`/`onRevoke` |
| settings.dfy | `SettingsStore` | `Settings` |
| settings_screen.dfy | `SettingsScreen` | `save_settings` and the hours and minutes of the statistics label |
| session.dfy | `Session` | `VPNEngine` |
| bandwidth_graph.dfy | `Bandwidth` | `BandwidthGraph.push` |

Several things outside the program become inputs:

- **The clock:** the current time is a parameter `now`, in microseconds.
- **Platform calls:** `VpnService.prepare`, `startService` and `establish()` become oracle
  outcomes passed in.
- **The settings file:** its contents arrive as a `SettingsFile` value.
- **The resolver's answer:** the bytes come in as a parameter of the reply builder.

## Model

| member | source | states |
|---|---|---|
| Bytes.Be16OfHiLo | java_src/org/discordia/vpn/DiscordiaVPNService.java:252-255 | writing a 16-bit value as `(byte)(v >> 8)`, `(byte)(v & 0xFF)` and reading the two octets back big-endian gives the value |
| Decimal.Digits | main.py:216-219 | the decimal text of a natural number is non-empty, all digits, with no leading zero, and is one character exactly when the number is below 10 |
| Decimal.ValueOfDigits | main.py:216-219 | reading back the decimal text of `n` gives `n` |
| Decimal.IntToString | main.py:219 | Python's `str(n)`: a minus sign exactly for negative numbers, followed by the digits of the magnitude |
| Decimal.Pad2 | main.py:219 | `{n:02d}` is at least two characters; for `0 <= n < 100` exactly two digits; for every `n >= 0` digits that read back as `n`, either exactly two or with no leading zero (which pins the text down); a negative number is written unpadded with its sign |
| InternetChecksum.Fold | java_src/org/discordia/vpn/DiscordiaVPNService.java:303-305 | folding the carries ends below 2^16, keeps the sum's residue modulo 0xFFFF, and gives 0 exactly when the sum is 0 |
| InternetChecksum.WordSumBound | java_src/org/discordia/vpn/DiscordiaVPNService.java:297-302 | the unfolded word sum of `n` octets is at most 0xFFFF times the number of words |
| InternetChecksum.OddLengthIsZeroPadded | java_src/org/discordia/vpn/DiscordiaVPNService.java:300-302 | an odd trailing octet counts as the high octet of a word whose low octet is zero |
| InternetChecksum.ChecksumVerifies | java_src/org/discordia/vpn/DiscordiaVPNService.java:280-285 | RFC 1071 verification: after the checksum of a header with a zeroed checksum field is written into octets 10–11, the header's checksum is 0 |
| InternetChecksum.ChecksumIsRfc1071 | java_src/org/discordia/vpn/DiscordiaVPNService.java:295-307 | summing in full and folding at the end equals RFC 1071's word-by-word ones'-complement sum with end-around carry, complemented |
| InternetChecksum.OnesAdd | java_src/org/discordia/vpn/DiscordiaVPNService.java:304 | ones'-complement addition of two 16-bit values stays within 16 bits, is addition modulo 0xFFFF, and is 0 only for 0 + 0 |
| InternetChecksum.CalculateChecksum | java_src/org/discordia/vpn/DiscordiaVPNService.java:295-307 | the loop's result over `data[offset..offset+length]` is the RFC 1071 checksum of those octets, in 0..0xFFFF, with the Java `int` accumulator never overflowing |
| DnsPackets.IsDnsPacket | java_src/org/discordia/vpn/DiscordiaVPNService.java:183-202 | true exactly when length ≥ 28, the version nibble is 4, the protocol is 17, IHL·4 + 4 ≤ length and the big-endian port at IHL·4+2 is 53; when true, the port octets lie below `length` |
| DnsPackets.IsDnsPacketReadsOnlyLength | java_src/org/discordia/vpn/DiscordiaVPNService.java:183-202 | the classification depends on the first `length` octets only |
| DnsPackets.BuildReply | java_src/org/discordia/vpn/DiscordiaVPNService.java:211-285 | no reply exactly when the DNS length `length − (IHL·4 + 8)` is ≤ 0; otherwise the reply satisfies `IsReplyFor`: length IHL·4 + 8 + responseLen, stored big-endian in octets 2–3; header copied except 2–3 and 10–11; addresses swapped; header checksum recomputed over the zeroed field; ports swapped; UDP length 8 + responseLen; zero UDP checksum; payload = response. Its header also verifies to checksum 0 |
| DnsPackets.ArrayCopy | java_src/org/discordia/vpn/DiscordiaVPNService.java:274-278 | `System.arraycopy` writes the source at the position and leaves every other octet unchanged |
| DnsReplies.ReplyAnswersQuery | java_src/org/discordia/vpn/DiscordiaVPNService.java:241-285 | read as a datagram, the reply reverses the query: source and destination addresses and ports exchanged, sent from port 53, carrying exactly the response, with consistent UDP and IPv4 lengths; it is itself a DNS query only when the query came from port 53 |
| DnsReplies.ReplyIsDetermined | java_src/org/discordia/vpn/DiscordiaVPNService.java:241-285 | the reply description fixes every octet: two packets satisfying it are equal |
| VpnService.ConfigOf | java_src/org/discordia/vpn/DiscordiaVPNService.java:58-69 | absent `mode`, `dns_primary`, `dns_secondary` extras become "doh", "1.1.1.1", "1.0.0.1"; `block_ads` defaults to false and `split_tunnel` to true; present extras are taken as given |
| VpnService.RoutedAddresses | java_src/org/discordia/vpn/DiscordiaVPNService.java:90-100 | with split tunnelling the tunnel carries exactly the two configured resolvers, 8.8.8.8 and 8.8.4.4 (each /32); without it, every address (0.0.0.0/0) |
| VpnService.BuilderConfig | java_src/org/discordia/vpn/DiscordiaVPNService.java:83-100 | the interface's DNS servers are the primary then the secondary, and both are routed into the tunnel in either mode |
| VpnService.DiscordiaVpnService.constructor | java_src/org/discordia/vpn/DiscordiaVPNService.java:34-42 | a new service is stopped with the default configuration |
| VpnService.DiscordiaVpnService.OnStartCommand | java_src/org/discordia/vpn/DiscordiaVPNService.java:44-73 | no intent: START_NOT_STICKY and nothing changes; STOP: START_NOT_STICKY and stopped; otherwise START_STICKY, the configuration is the extras with their defaults, and the tunnel starts unless already running |
| VpnService.DiscordiaVpnService.StartVpn | java_src/org/discordia/vpn/DiscordiaVPNService.java:75-128 | a no-op while running; otherwise establishes the builder configuration, and runs (holding interface and thread) exactly when `establish()` returns an interface |
| VpnService.DiscordiaVpnService.StopVpn | java_src/org/discordia/vpn/DiscordiaVPNService.java:309-327 | afterwards not running, no thread, no interface |
| VpnService.DiscordiaVpnService.OnRevoke | java_src/org/discordia/vpn/DiscordiaVPNService.java:329-339 | `onDestroy` and `onRevoke` leave the service stopped |
| VpnService.SecondStartIsNoOp | java_src/org/discordia/vpn/DiscordiaVPNService.java:44-79 | a second start while running stores the second intent's extras, applies nothing, and keeps the interface built from the first intent's DNS servers and routes |
| SettingsStore.Loaded | main.py:155-162 | a stored mapping overrides exactly its own keys and every other key keeps its value; a missing or unreadable file changes nothing |
| SettingsStore.ReloadAfterSave | main.py:155-169 | loading over the defaults what `save` wrote gives back the same mapping |
| SettingsStore.Settings.constructor | main.py:151-153 | the store starts as the defaults overlaid by the file, and holds every default key |
| SettingsStore.Settings.Load | main.py:155-162 | `load` overlays the file on the current mapping and keeps every default key |
| SettingsStore.Settings.Get | main.py:171-172 | the stored value when the key is present, the caller's default when it is absent |
| SettingsStore.Settings.Set | main.py:174-176 | afterwards `get(key)` is the value and every other key reads as before |
| SettingsScreen.LeadingSpace | main.py:1651-1652 | where the front scan of `strip` stops: every character skipped from the start index is whitespace, and the one it stops at is not (or it reaches the end) |
| SettingsScreen.TrailingSpace | main.py:1651-1652 | where the back scan of `strip` stops: every character dropped before the end index is whitespace, and the one before the stop is not (or it reaches the lower bound) |
| SettingsScreen.Strip | main.py:1651-1652 | `strip` returns the contiguous slice after the leading whitespace with only whitespace after it; empty exactly when the text is all whitespace, otherwise starting and ending with non-whitespace |
| SettingsScreen.DnsField | main.py:1651-1652 | a blank field becomes the fallback; any other field is stored stripped and non-blank |
| SettingsScreen.SaveSettings | main.py:1650-1656 | the five fields are stored under their keys, the DNS fields through the fallback, and nothing else changes |
| SettingsScreen.HoursMinutes | main.py:1641-1643 | `h` hours plus `m` minutes, `0 <= m < 60`, fall short of the total by less than a minute; hours are non-negative for a non-negative total |
| Session.ElapsedSeconds | main.py:222-225 | whole seconds between two timestamps, truncated toward zero: for a forward clock the largest `n` with `n` seconds ≤ the elapsed time, and for a backward clock the mirror image |
| Session.Hms | main.py:217-218 | minutes and seconds below 60, and hours·3600 + minutes·60 + seconds is the total; hours are not wrapped |
| Session.FormatHmsRoundTrip | main.py:213-219 | for a non-negative number of seconds, `H..H:MM:SS` has at least eight characters with colons in place, minutes and seconds below 60, hours zero-filled to two digits or without a leading zero, and reads back as the same number |
| Session.FieldsReadAs | main.py:219 | three `02d` fields joined by colons, with minutes and seconds below 60, form such text and read back as `h * 3600 + m * 60 + s` |
| Session.FormatHmsNegative | main.py:213-219 | for a negative number of seconds the text is `-H..H:MM:SS`: a minus sign, hours without a leading zero, minutes and seconds below 60, reading back as the number with the hours negative and the minutes and seconds added |
| Session.NegativeHours | main.py:217-219 | the hours `divmod` gives for a negative number of seconds are negative, and `{h:02d}` writes them as a minus sign and the digits of the magnitude, without a leading zero |
| Session.NegativeFieldsReadAs | main.py:219 | a minus sign, hour digits without a leading zero and two `02d` fields joined by colons read back as `-k * 3600 + m * 60 + s` |
| Decimal.LeadingDigitOfPositive | main.py:219 | the decimal text of a positive number does not start with a zero |
| Session.Upper | main.py:304 | `mode.upper()` keeps the length and maps every ASCII lower-case letter to upper case, nothing else changed |
| Session.ServiceReceivesSettings | main.py:274-297 | the START intent built from the settings makes the service configure itself with the requested mode, both DNS servers and both switches |
| Session.VpnEngine.constructor | main.py:197-202 | a new engine is disconnected in "doh" mode without a timestamp |
| Session.VpnEngine.UptimeSeconds | main.py:221-225 | 0 without a timestamp, otherwise the whole seconds elapsed, truncated toward zero in both directions: non-negative and within a second below the elapsed time for a clock that moved forward, non-positive and within a second above it for one that went back |
| Session.VpnEngine.UptimeStr | main.py:212-219 | "00:00:00" without a timestamp; for non-negative elapsed seconds `H..H:MM:SS` text with minutes and seconds below 60 and the hours zero-filled to two digits; for negative ones (a clock that went back) `-H..H:MM:SS` with negative hours; either way the text reads back as `uptime_seconds` |
| Session.VpnEngine.Connect | main.py:227-238 | records the mode; the simulation always succeeds, connects with the timestamp `now` and leaves both counters unchanged; the connected time is never changed |
| Session.VpnEngine.ConnectAndroid | main.py:254-308 | granted: connected, timestamped, `total_connections` incremented by exactly 1, the service sent the START intent; denied or raising: false with the message, connection state and counters unchanged |
| Session.VpnEngine.Disconnect | main.py:240-251 | always ends disconnected without a timestamp; adds the elapsed whole seconds to `total_connected_time` only when a timestamp was present; never changes `total_connections`; on Android the STOP intent goes to the service exactly when sending it does not raise |
| Session.VpnEngine.DisconnectAndroid | main.py:310-338 | clears the state even when sending STOP raises (then false with the message, counters unchanged, nothing sent); on success the STOP intent was sent and the session's whole seconds are added if a timestamp was present |
| Session.ServiceStopsOnStop | main.py:316-322 | the STOP intent `disconnect` sends makes the service stop and answer START_NOT_STICKY, keeping its stored configuration |
| Session.VpnEngine.AddSessionTime | main.py:245-248 | the counter grows by the elapsed whole seconds exactly when a timestamp is present |
| Session.SimulatedSession | main.py:227-251 | a two-second simulated session adds 2 to the connected time and nothing to the connection count; a second disconnect changes neither counter |
| Session.AndroidConnections | main.py:254-308 | a denied connection counts nothing, a granted one counts once |
| Bandwidth.Slide | main.py:1425-1427 | `w[1:] + [x]`: same length for a non-empty window, the new sample last, every other sample moved one place toward the front |
| Bandwidth.SlideAllKeepsLatest | main.py:1425-1427 | after any number of pushes a window holds exactly its latest `\|w\|` samples, the new ones last |
| Bandwidth.WindowForgetsOldSamples | main.py:1421-1427 | sixty pushes into a sixty-sample window leave exactly the pushed samples |
| Bandwidth.BandwidthGraph.constructor | main.py:1421-1423 | both series start as sixty zeros |
| Bandwidth.BandwidthGraph.Push | main.py:1425-1427 | each series keeps sixty samples, drops the oldest and appends the new value last |
| Bandwidth.FillWindow | main.py:1425-1427 | pushing sixty samples leaves exactly those samples in both series |

## Left out

- `DoHResolver.java` is not part of this model: it is HTTP transport over the network.
- `runVpnLoop` is left out: TUN file descriptors, the worker thread and the `AtomicBoolean`.
- The UDP exchange in `handleDnsPacket` is left out: the socket, `protect`, the timeout and the
  send/receive. The resolver's answer is an input of the reply builder.
- The `catch` that swallows exceptions in `handleDnsPacket` is not modelled.
- `check_server`, `fetch_ip_threaded`, `launch_wireguard`, `launch_warp` and the IP lookup are
  left out: network, HTTP and Android intents to other apps.
- `Settings.save` (JSON encoding, file writing, the logged error) is left out as file I/O. A
  save followed by a load is covered by `SettingsStore.ReloadAfterSave`.
- Log files, `log.*` calls, `time.sleep` and `stopSelf()` are left out.
- Threading and the `Clock` marshalling are left out.
- The Kivy UI, the KV layout, drawing (`_redraw`, `ConnectOrb`) and `C.hex` are left out: they
  work on floats.
- The random bandwidth samples are left out; the samples are `real` parameters.
- `SettingsStore.Loaded` treats a file whose JSON is not an object as `Unreadable`. Python's
  `dict.update` would accept a list of pairs; that shape is not modelled.
- `Session.VpnEngine.Connect` requires both counters to hold integers, as the defaults do.
  A hand-edited counter that is not a number (a string, `null`, a list, an object) makes the
  `+` at main.py:247-248, 301 and 326-327 raise. A float or boolean counter is added to as a
  number and stored. The integer-counter invariant (`Session.CountersAreInts`) excludes both
  cases; neither is modelled.
- `Session.VpnEngine.ConnectAndroid` models a raising platform call as raising before
  `startService`; `settings.set` cannot raise, because `save` catches its own errors
  (main.py:164-176). The one statement after `startService` that can raise is
  `settings.get("total_connections", 0) + 1` on a non-numeric counter (main.py:301), which
  would return false with `_connected` already true and the timestamp set. That case is excluded
  by the integer-counter invariant, as for `Session.VpnEngine.Connect`.
- The statistics label text (main.py:1644-1648) is left out: it is Kivy markup. The hours and
  minutes it shows are `SettingsScreen.HoursMinutes` of the stored total (main.py:1641-1643).
- `Session.Upper` maps ASCII letters only; Python's full Unicode case mapping is not modelled.
- `InternetChecksum.CalculateChecksum` requires `length <= 65535`, the largest IPv4 datagram,
  so the Java `int` sum cannot overflow. Longer inputs, where Java would wrap, are not modelled.
- `DnsPackets.BuildReply` requires a header of at least 20 octets (IHL ≥ 5). The classifier
  accepts smaller IHL values, for which the address swap would overwrite the UDP header.
- `DnsPackets.BuildReply` requires a response of at most 1024 octets, the size of the receive
  buffer.
- `Session.VpnEngine.Disconnect` adds `int(total_seconds())` as the source does. A wall clock
  that steps backwards during a session under-counts it. If the session ends a second or more
  before the connect time, the elapsed time is negative and lowers `total_connected_time`.
  Growth is stated only for `now` not before the connect time.
- `VpnService.DiscordiaVpnService.StartVpn` reduces the interface and thread objects to
  presence. `addDisallowedApplication` and the `Log` calls are not modelled.

=== FILE: bandwidth_graph.dfy ===
/**
 * `BandwidthGraph` of `main.py`: two sliding windows of the last 60 download and upload samples.
 * Drawing is not modelled; only the sample history that `push` maintains.
 */
module Bandwidth {
  const WINDOW: nat := 60

  /** `w[1:] + [x]`: Python's `[1:]` of an empty list is empty. */
  function Slide<T>(w: seq<T>, x: T): (r: seq<T>)
    ensures |r| == if w == [] then 1 else |w|
    ensures r[|r| - 1] == x
    ensures forall i :: 0 <= i < |r| - 1 ==> r[i] == w[i + 1]
  {
    (if w == [] then [] else w[1..]) + [x]
  }

  /** The window after pushing every sample of `xs` in turn. */
  function SlideAll<T>(w: seq<T>, xs: seq<T>): seq<T>
    decreases |xs|
  {
    if xs == [] then w else SlideAll(Slide(w, xs[0]), xs[1..])
  }

  /**
   * A non-empty window keeps its length and, after any number of pushes, holds exactly the
   * latest `|w|` values of the old window followed by the new samples.
   */
  lemma {:induction false} SlideAllKeepsLatest<T>(w: seq<T>, xs: seq<T>)
    requires w != []
    ensures SlideAll(w, xs) == (w + xs)[|xs|..]
    decreases |xs|
  {
    if xs != [] {
      var w' := Slide(w, xs[0]);
      assert w' == (w + [xs[0]])[1..];
      SlideAllKeepsLatest(w', xs[1..]);
      assert (w' + xs[1..])[|xs| - 1..] == (w + xs)[|xs|..] by {
        assert w' + xs[1..] == (w + xs)[1..];
      }
    }
  }

  /** Once `WINDOW` samples have been pushed, the window holds exactly those samples. */
  lemma WindowForgetsOldSamples<T>(w: seq<T>, xs: seq<T>)
    requires |w| == WINDOW && |xs| == WINDOW
    ensures SlideAll(w, xs) == xs
  {
    SlideAllKeepsLatest(w, xs);
    assert (w + xs)[|xs|..] == xs;
  }

  class BandwidthGraph {
    var download: seq<real>
    var upload: seq<real>

    /** Both histories always hold `WINDOW` samples. */
    ghost predicate Valid()
      reads this
    {
      |download| == WINDOW && |upload| == WINDOW
    }

    /** `ListProperty([0.0] * 60)` for both histories. */
    constructor ()
      ensures Valid()
      ensures forall i :: 0 <= i < WINDOW ==> download[i] == 0.0 && upload[i] == 0.0
    {
      download := seq(WINDOW, i => 0.0);
      upload := seq(WINDOW, i => 0.0);
    }

    /** `push(dl, ul)`: the oldest sample of each history drops out and the new one is last. */
    method Push(dl: real, ul: real)
      requires Valid()
      modifies this
      ensures Valid()
      ensures download == old(download)[1..] + [dl]
      ensures upload == old(upload)[1..] + [ul]
    {
      download := Slide(download, dl);
      upload := Slide(upload, ul);
    }
  }

  /** Sixty pushes replace the whole history, whatever it held. */
  method FillWindow(graph: BandwidthGraph, samples: seq<real>)
    requires graph.Valid() && |samples| == WINDOW
    modifies graph
    ensures graph.Valid() && graph.download == samples && graph.upload == samples
  {
    ghost var d0, u0 := graph.download, graph.upload;
    var k := 0;
    while k < |samples|
      invariant 0 <= k <= |samples| && graph.Valid()
      invariant graph.download == SlideAll(d0, samples[..k])
      invariant graph.upload == SlideAll(u0, samples[..k])
    {
      SlideAllSnoc(d0, samples[..k], samples[k]);
      SlideAllSnoc(u0, samples[..k], samples[k]);
      graph.Push(samples[k], samples[k]);
      assert samples[..k + 1] == samples[..k] + [samples[k]];
      k := k + 1;
    }
    assert samples[..k] == samples;
    WindowForgetsOldSamples(d0, samples);
    WindowForgetsOldSamples(u0, samples);
  }

  /** Pushing one more sample after a batch is sliding once more. */
  lemma {:induction false} SlideAllSnoc<T>(w: seq<T>, xs: seq<T>, x: T)
    ensures SlideAll(w, xs + [x]) == Slide(SlideAll(w, xs), x)
    decreases |xs|
  {
    if xs == [] {
      assert SlideAll(w, [x]) == SlideAll(Slide(w, x), []);
    } else {
      assert (xs + [x])[1..] == xs[1..] + [x];
      SlideAllSnoc(Slide(w, xs[0]), xs[1..], x);
    }
  }
}

=== FILE: bytes.dfy ===
/** Octets and the big-endian 16-bit fields of the IPv4 and UDP headers. */
module Bytes {

  /** An octet as Java sees it after `b & 0xFF`. */
  type byte = x: int | 0 <= x < 256

  const WORD_LIMIT: int := 0x1_0000

  /** The big-endian 16-bit value stored at `s[i]`, `s[i + 1]`. */
  function Be16(s: seq<byte>, i: nat): (v: nat)
    requires i + 1 < |s|
    ensures v < WORD_LIMIT
  {
    s[i] as int * 256 + s[i + 1] as int
  }

  /** The high octet of a 16-bit value: Java's `(byte) (v >> 8)`, truncated to eight bits. */
  function Hi(v: nat): (b: byte)
  {
    (v / 256) % 256
  }

  /** The low octet: Java's `(byte) (v & 0xFF)`. */
  function Lo(v: nat): (b: byte)
  {
    v % 256
  }

  /** Writing a value below 2^16 as two octets and reading them back is the identity. */
  lemma Be16OfHiLo(s: seq<byte>, i: nat, v: nat)
    requires i + 1 < |s| && v < WORD_LIMIT
    requires s[i] == Hi(v) && s[i + 1] == Lo(v)
    ensures Be16(s, i) == v
  {
  }
}

=== FILE: checksum.dfy ===
/**
 * The Internet checksum of RFC 1071 as the VPN service computes it for the IPv4 header of the
 * replies it synthesises: the 16-bit ones'-complement of the ones'-complement sum of the
 * big-endian 16-bit words of the data, an odd trailing octet padded with a zero octet.
 */
module InternetChecksum {
  import opened Bytes

  /** 2^16 - 1: adding with end-around carry is addition modulo this number. */
  const ONES_MODULUS: int := 0xFFFF
  /** Largest value of a Java `int`. */
  const INT_MAX: int := 0x7FFF_FFFF
  /** Largest IPv4 datagram (its total-length field has 16 bits). */
  const MAX_DATAGRAM: int := 0xFFFF

  /**
   * The plain (unfolded) sum of the 16-bit big-endian words of `s`; an odd trailing octet counts
   * as the high octet of a word whose low octet is zero.
   */
  function WordSum(s: seq<byte>): nat
    decreases |s|
  {
    if |s| == 0 then 0
    else if |s| == 1 then s[0] as int * 256
    else s[0] as int * 256 + s[1] as int + WordSum(s[2..])
  }

  lemma {:induction false} WordSumAppend(a: seq<byte>, b: seq<byte>)
    requires |a| % 2 == 0
    ensures WordSum(a + b) == WordSum(a) + WordSum(b)
    decreases |a|
  {
    if |a| == 0 {
      assert a + b == b;
    } else {
      assert (a + b)[2..] == a[2..] + b;
      WordSumAppend(a[2..], b);
    }
  }

  /** Each word is at most 0xFFFF, and there are ceil(|s| / 2) of them. */
  lemma {:induction false} WordSumBound(s: seq<byte>)
    ensures WordSum(s) <= 0xFFFF * ((|s| + 1) / 2)
    decreases |s|
  {
    if |s| >= 2 {
      WordSumBound(s[2..]);
    }
  }

  /** An odd-length buffer sums as if a zero octet were appended to it. */
  lemma OddLengthIsZeroPadded(s: seq<byte>, last: byte)
    requires |s| % 2 == 0
    ensures WordSum(s + [last]) == WordSum(s + [last, 0])
  {
    WordSumAppend(s, [last]);
    WordSumAppend(s, [last, 0]);
    assert [last, 0][2..] == [];
  }

  /** Replacing the word-aligned octet pair at `p` changes the sum by the difference of the words. */
  lemma {:induction false} WordSumReplace(s: seq<byte>, p: nat, x: byte, y: byte)
    requires p % 2 == 0 && p + 1 < |s|
    ensures WordSum(s[p := x][p + 1 := y]) == WordSum(s) - Be16(s, p) + x as int * 256 + y as int
    decreases p
  {
    var t := s[p := x][p + 1 := y];
    if p == 0 {
      assert t[2..] == s[2..];
    } else {
      assert t[2..] == s[2..][p - 2 := x][p - 1 := y];
      WordSumReplace(s[2..], p - 2, x, y);
    }
  }

  /** Extending an even-length prefix by one word adds that word; the sum fits in a Java `int`. */
  lemma WordSumPrefixStep(d: seq<byte>, k: nat)
    requires k % 2 == 0 && k + 2 <= |d| <= MAX_DATAGRAM
    ensures WordSum(d[..k + 2]) == WordSum(d[..k]) + Be16(d, k)
    ensures WordSum(d[..k + 2]) <= INT_MAX
  {
    assert d[..k + 2] == d[..k] + d[k..k + 2];
    WordSumAppend(d[..k], d[k..k + 2]);
    assert d[k..k + 2][2..] == [];
    WordSumBound(d[..k + 2]);
    WordsFitInInt(k + 2);
  }

  /** The odd trailing octet of `d` adds a word with that octet high; the sum fits in an `int`. */
  lemma WordSumOddTail(d: seq<byte>)
    requires |d| % 2 == 1 && |d| <= MAX_DATAGRAM
    ensures WordSum(d) == WordSum(d[..|d| - 1]) + d[|d| - 1] as int * 256
    ensures WordSum(d) <= INT_MAX
  {
    assert d == d[..|d| - 1] + [d[|d| - 1]];
    WordSumAppend(d[..|d| - 1], [d[|d| - 1]]);
    WordSumBound(d);
    WordsFitInInt(|d|);
  }

  lemma WordsFitInInt(n: nat)
    requires n <= MAX_DATAGRAM
    ensures 0xFFFF * ((n + 1) / 2) <= INT_MAX
  {
    assert (n + 1) / 2 <= 0x8000;
  }

  /** One step of carry folding keeps the sum's residue modulo 0xFFFF and makes it smaller. */
  lemma FoldStep(s: nat)
    requires s >= WORD_LIMIT
    ensures 0 < s % WORD_LIMIT + s / WORD_LIMIT < s
    ensures (s % WORD_LIMIT + s / WORD_LIMIT) % ONES_MODULUS == s % ONES_MODULUS
  {
    var q, r := s / WORD_LIMIT, s % WORD_LIMIT;
    assert s == q * WORD_LIMIT + r;
    assert s == (q + r) + q * ONES_MODULUS;
    ModuloAddMultiple(q + r, q);
  }

  lemma {:induction false} ModuloAddMultiple(a: nat, k: nat)
    ensures (a + k * ONES_MODULUS) % ONES_MODULUS == a % ONES_MODULUS
    decreases k
  {
    if k > 0 {
      ModuloAddMultiple(a, k - 1);
      assert a + k * ONES_MODULUS == (a + (k - 1) * ONES_MODULUS) + ONES_MODULUS;
    }
  }

  /**
   * Folding the carries (the Java `while ((sum >> 16) > 0)` loop): the result fits in 16 bits,
   * is congruent to the sum modulo 0xFFFF, and is zero only when the sum is.
   */
  function Fold(s: nat): (r: nat)
    ensures r < WORD_LIMIT
    ensures r % ONES_MODULUS == s % ONES_MODULUS
    ensures r == 0 <==> s == 0
    decreases s
  {
    if s < WORD_LIMIT then s
    else
      FoldStep(s);
      Fold(s % WORD_LIMIT + s / WORD_LIMIT)
  }

  /** The checksum the service computes: the complement, within 16 bits, of the folded sum. */
  function Checksum(s: seq<byte>): (c: nat)
    ensures c < WORD_LIMIT
  {
    ONES_MODULUS - Fold(WordSum(s))
  }

  /** Two 16-bit values that agree modulo 0xFFFF and are both zero or both non-zero are equal. */
  lemma SameOnesComplementValue(x: nat, y: nat)
    requires x < WORD_LIMIT && y < WORD_LIMIT
    requires x % ONES_MODULUS == y % ONES_MODULUS
    requires x == 0 <==> y == 0
    ensures x == y
  {
  }

  /**
   * The verification rule of RFC 1071: once the checksum of a header whose checksum field (octets
   * 10 and 11) is zero has been written into that field, the checksum of the header is zero.
   */
  lemma ChecksumVerifies(h: seq<byte>)
    requires 12 <= |h| && h[10] == 0 && h[11] == 0
    ensures Checksum(h[10 := Hi(Checksum(h))][11 := Lo(Checksum(h))]) == 0
  {
    var c := Checksum(h);
    var s := WordSum(h);
    var f := Fold(s);
    WordSumReplace(h, 10, Hi(c), Lo(c));
    assert Hi(c) as int * 256 + Lo(c) as int == c;
    var s' := WordSum(h[10 := Hi(c)][11 := Lo(c)]);
    assert s' == (s - f) + ONES_MODULUS;
    FoldedSumIsMultiple(s);
    FoldOfMultiple(s');
  }

  /** The sum exceeds its folded value by a multiple of 0xFFFF, so adding 0xFFFF keeps it one. */
  lemma FoldedSumIsMultiple(s: nat)
    ensures Fold(s) <= s
    ensures ((s - Fold(s)) + ONES_MODULUS) % ONES_MODULUS == 0
    ensures (s - Fold(s)) + ONES_MODULUS > 0
  {
    var f := Fold(s);
    if s >= WORD_LIMIT {
      FoldStep(s);
      FoldedSumIsMultiple(s % WORD_LIMIT + s / WORD_LIMIT);
    }
    ModuloDifference(s, f);
    var k := (s - f) / ONES_MODULUS;
    assert (s - f) + ONES_MODULUS == (k + 1) * ONES_MODULUS;
    ModuloAddMultiple(0, k + 1);
  }

  /** A positive multiple of 0xFFFF folds to 0xFFFF, the ones'-complement "negative zero". */
  lemma FoldOfMultiple(x: nat)
    requires x > 0 && x % ONES_MODULUS == 0
    ensures Fold(x) == ONES_MODULUS
  {
    var r := Fold(x);
    assert 0 < r < WORD_LIMIT && r % ONES_MODULUS == 0;
  }

  lemma ModuloDifference(a: nat, b: nat)
    requires b <= a && a % ONES_MODULUS == b % ONES_MODULUS
    ensures (a - b) % ONES_MODULUS == 0
  {
    var k := a / ONES_MODULUS - b / ONES_MODULUS;
    assert a - b == k * ONES_MODULUS;
  }

  // ---------------------------------------------------------------------------------------------
  // RFC 1071 reference: ones'-complement addition with end-around carry, word by word.

  /** Ones'-complement addition of two 16-bit values: a carry out of bit 15 is added back in. */
  function OnesAdd(a: nat, b: nat): (r: nat)
    requires a < WORD_LIMIT && b < WORD_LIMIT
    ensures r < WORD_LIMIT
    ensures r % ONES_MODULUS == (a + b) % ONES_MODULUS
    ensures r == 0 <==> a == 0 && b == 0
  {
    if a + b >= WORD_LIMIT then
      assert a + b == (a + b - ONES_MODULUS) + 1 * ONES_MODULUS;
      ModuloAddMultiple(a + b - ONES_MODULUS, 1);
      a + b - ONES_MODULUS
    else a + b
  }

  /** The ones'-complement sum of the words of `s`, accumulated one word at a time. */
  function OnesSum(s: seq<byte>): (r: nat)
    ensures r < WORD_LIMIT
    decreases |s|
  {
    if |s| == 0 then 0
    else if |s| == 1 then OnesAdd(s[0] as int * 256, 0)
    else OnesAdd(s[0] as int * 256 + s[1] as int, OnesSum(s[2..]))
  }

  /** RFC 1071's checksum: the ones'-complement of the ones'-complement sum. */
  function ReferenceChecksum(s: seq<byte>): (c: nat)
  {
    ONES_MODULUS - OnesSum(s)
  }

  lemma {:induction false} OnesSumResidue(s: seq<byte>)
    ensures OnesSum(s) % ONES_MODULUS == WordSum(s) % ONES_MODULUS
    ensures OnesSum(s) == 0 <==> WordSum(s) == 0
    decreases |s|
  {
    if |s| >= 2 {
      OnesSumResidue(s[2..]);
      var w := s[0] as int * 256 + s[1] as int;
      var t := OnesSum(s[2..]);
      var u := WordSum(s[2..]);
      CongruentSums(w, t, u);
    }
  }

  lemma CongruentSums(w: nat, t: nat, u: nat)
    requires t % ONES_MODULUS == u % ONES_MODULUS
    ensures (w + t) % ONES_MODULUS == (w + u) % ONES_MODULUS
  {
    var m := ONES_MODULUS;
    assert t == (t / m) * m + t % m;
    assert u == (u / m) * m + u % m;
    ModuloAddMultiple(w + t % m, t / m);
    ModuloAddMultiple(w + u % m, u / m);
    assert w + t == (w + t % m) + (t / m) * m;
    assert w + u == (w + u % m) + (u / m) * m;
  }

  /** Folding the plain sum's carries at the end gives RFC 1071's ones'-complement checksum. */
  lemma ChecksumIsRfc1071(s: seq<byte>)
    ensures Checksum(s) == ReferenceChecksum(s)
  {
    OnesSumResidue(s);
    SameOnesComplementValue(Fold(WordSum(s)), OnesSum(s));
  }

  // ---------------------------------------------------------------------------------------------

  /**
   * `calculateChecksum(data, offset, length)`: sums the words of `data[offset..offset+length]`
   * in a Java `int`, folds the carries and returns the 16-bit complement. The datagram bound keeps
   * the `int` accumulator from overflowing.
   */
  method CalculateChecksum(data: array<byte>, offset: nat, length: nat) returns (checksum: int)
    requires offset + length <= data.Length
    requires length <= MAX_DATAGRAM
    ensures checksum == Checksum(data[offset..offset + length])
    ensures 0 <= checksum < WORD_LIMIT
  {
    ghost var d := data[offset..offset + length];
    var sum := 0;
    var i := offset;
    while i < offset + length - 1
      invariant offset <= i <= offset + length
      invariant (i - offset) % 2 == 0
      invariant sum == WordSum(d[..i - offset])
      invariant sum <= INT_MAX
    {
      WordSumPrefixStep(d, i - offset);
      assert d[i - offset] == data[i] && d[i - offset + 1] == data[i + 1];
      sum := sum + (data[i] as int * 256 + data[i + 1] as int);
      i := i + 2;
    }
    if length % 2 != 0 {
      WordSumOddTail(d);
      assert d[|d| - 1] == data[offset + length - 1];
      sum := sum + data[offset + length - 1] as int * 256;
    } else {
      assert d[..i - offset] == d;
    }
    assert sum == WordSum(d);
    ghost var total := sum;
    while sum >= WORD_LIMIT
      invariant 0 <= sum <= INT_MAX
      invariant Fold(sum) == Fold(total)
      decreases sum
    {
      FoldStep(sum);
      sum := sum % WORD_LIMIT + sum / WORD_LIMIT;
    }
    // Java's `~sum & 0xFFFF` for 0 <= sum < 2^16.
    checksum := ONES_MODULUS - sum;
  }
}

=== FILE: decimal.dfy ===
/**
 * Decimal text of integers, as Python's `str(n)` and `format(n, "02d")` produce it, and the
 * reading back of such text.
 */
module Decimal {

  predicate IsDigit(c: char)
  {
    '0' <= c <= '9'
  }

  predicate AllDigits(s: string)
  {
    forall i :: 0 <= i < |s| ==> IsDigit(s[i])
  }

  function DigitChar(d: nat): (c: char)
    requires d < 10
    ensures IsDigit(c)
  {
    ['0', '1', '2', '3', '4', '5', '6', '7', '8', '9'][d]
  }

  function DigitValue(c: char): (d: nat)
    requires IsDigit(c)
    ensures d < 10
  {
    c as int - '0' as int
  }

  /** The shortest decimal text of `n`: no leading zero unless `n` is 0. */
  function Digits(n: nat): (s: string)
    ensures 1 <= |s| && AllDigits(s)
    ensures |s| > 1 ==> s[0] != '0'
    ensures n < 10 <==> |s| == 1
  {
    if n < 10 then [DigitChar(n)] else Digits(n / 10) + [DigitChar(n % 10)]
  }

  /** The value of a string of decimal digits (the empty string reads as 0). */
  function Value(s: string): nat
    requires AllDigits(s)
  {
    if s == [] then 0 else Value(s[..|s| - 1]) * 10 + DigitValue(s[|s| - 1])
  }

  lemma DigitRoundTrip(d: nat)
    requires d < 10
    ensures DigitValue(DigitChar(d)) == d
  {
  }

  /** Reading back the text `Digits` writes gives the number. */
  lemma {:induction false} ValueOfDigits(n: nat)
    ensures Value(Digits(n)) == n
  {
    var s := Digits(n);
    if n < 10 {
      DigitRoundTrip(n);
      assert s[..0] == [];
    } else {
      ValueOfDigits(n / 10);
      DigitRoundTrip(n % 10);
      assert s[..|s| - 1] == Digits(n / 10);
    }
  }

  /** The text of a positive number never starts with a zero. */
  lemma LeadingDigitOfPositive(n: nat)
    requires n > 0
    ensures Digits(n)[0] != '0'
  {
  }

  /** Python's `str(n)` for an `int`: a minus sign, then the digits of the magnitude. */
  function IntToString(n: int): (s: string)
    ensures 1 <= |s|
    ensures n >= 0 ==> s == Digits(n)
    ensures n < 0 ==> s[0] == '-' && s[1..] == Digits(-n)
  {
    if n < 0 then "-" + Digits(-n) else Digits(n)
  }

  /**
   * Python's `format(n, "02d")`: zero-filled to width two after the sign. A number from 0 on is
   * written in exactly two digits or without a leading zero, so its text is the only digit string
   * of that shape with its value. A negative number already has at least two characters, so it is
   * never padded.
   */
  function Pad2(n: int): (s: string)
    ensures 2 <= |s|
    ensures 0 <= n < 100 ==> |s| == 2 && AllDigits(s) && Value(s) == n
    ensures n >= 0 ==> AllDigits(s) && Value(s) == n
    ensures n >= 0 ==> |s| == 2 || s[0] != '0'
    ensures n < 0 ==> s == IntToString(n)
  {
    PaddingIsHarmless(n);
    if n < 0 then "-" + Digits(-n)
    else if n < 10 then "0" + Digits(n)
    else Digits(n)
  }

  lemma PaddingIsHarmless(n: int)
    ensures n >= 0 ==> AllDigits(Digits(n)) && Value(Digits(n)) == n
    ensures 0 <= n < 10 ==> AllDigits("0" + Digits(n)) && Value("0" + Digits(n)) == n
    ensures 10 <= n < 100 ==> |Digits(n)| == 2
  {
    if n >= 0 {
      ValueOfDigits(n);
    }
    if 0 <= n < 10 {
      var s := "0" + Digits(n);
      assert s[..1] == "0";
      assert s[..0] == [];
      DigitRoundTrip(n);
    }
    if 10 <= n < 100 {
      assert Digits(n) == Digits(n / 10) + [DigitChar(n % 10)];
    }
  }
}

=== FILE: dns_packets.dfy ===
/**
 * The packet handling of the Android VPN service: recognising IPv4/UDP datagrams addressed to the
 * DNS port (header layout of section 3.1 of RFC 791, UDP header of RFC 768, port 53 of section
 * 4.2.1 of RFC 1035), and synthesising the IPv4/UDP reply that carries a resolver's answer back
 * through the TUN device.
 */
module DnsPackets {
  import opened Bytes
  import opened Options
  import opened InternetChecksum

  const IPV4_VERSION: int := 4
  const PROTOCOL_UDP: int := 17
  const DNS_PORT: int := 53
  /** A 20-octet IPv4 header followed by an 8-octet UDP header. */
  const MIN_DNS_PACKET: int := 28
  const MIN_IP_HEADER: int := 20
  const UDP_HEADER: int := 8
  /** Size of the buffer the resolver's answer is received into. */
  const MAX_DNS_RESPONSE: int := 1024

  /** The IPv4 version: the high nibble of octet 0. */
  function Version(p: seq<byte>): nat
    requires |p| > 0
  {
    p[0] / 16
  }

  /** The IPv4 header length in octets: four times the low nibble (IHL) of octet 0. */
  function HeaderLength(p: seq<byte>): nat
    requires |p| > 0
  {
    (p[0] % 16) * 4
  }

  /** The IPv4 protocol field, octet 9. */
  function Protocol(p: seq<byte>): byte
    requires |p| > 9
  {
    p[9]
  }

  function SourcePort(p: seq<byte>): nat
    requires |p| > 0 && HeaderLength(p) + 2 <= |p|
  {
    Be16(p, HeaderLength(p))
  }

  function DestinationPort(p: seq<byte>): nat
    requires |p| > 0 && HeaderLength(p) + 4 <= |p|
  {
    Be16(p, HeaderLength(p) + 2)
  }

  /**
   * `isDnsPacket(data, length)`: the first `length` octets of the buffer hold an IPv4 datagram
   * carrying UDP whose destination port is 53. The classifier reads octets 0 and 9 only once the
   * buffer holds at least 28 octets, and the port only once it lies below `length`.
   */
  function IsDnsPacket(data: seq<byte>, length: int): (r: bool)
    requires length <= |data|
    ensures r ==> MIN_DNS_PACKET <= length && HeaderLength(data) + 4 <= length
    ensures r <==> && MIN_DNS_PACKET <= length
                   && Version(data) == IPV4_VERSION
                   && Protocol(data) == PROTOCOL_UDP
                   && HeaderLength(data) + 4 <= length
                   && DestinationPort(data) == DNS_PORT
  {
    if length < MIN_DNS_PACKET then false
    else if data[0] / 16 != IPV4_VERSION then false
    else if data[9] != PROTOCOL_UDP then false
    else
      var ipHeaderLength := (data[0] % 16) * 4;
      if length < ipHeaderLength + 4 then false
      else Be16(data, ipHeaderLength + 2) == DNS_PORT
  }

  /** The classification depends on the first `length` octets of the buffer only. */
  lemma IsDnsPacketReadsOnlyLength(data: seq<byte>, other: seq<byte>, length: nat)
    requires length <= |data| && length <= |other|
    requires data[..length] == other[..length]
    ensures IsDnsPacket(data, length) == IsDnsPacket(other, length)
  {
    if length >= MIN_DNS_PACKET {
      assert data[0] == data[..length][0] && other[0] == other[..length][0];
      assert data[9] == data[..length][9] && other[9] == other[..length][9];
      var hl := HeaderLength(data);
      if hl + 4 <= length {
        assert data[hl + 2] == data[..length][hl + 2] && other[hl + 2] == other[..length][hl + 2];
        assert data[hl + 3] == data[..length][hl + 3] && other[hl + 3] == other[..length][hl + 3];
      }
    }
  }

  /**
   * The replies are built only for queries whose header is at least the 20 octets that hold both
   * addresses: the address swap writes octets 12 to 19 whatever the header length.
   */
  predicate IsBuildableQuery(data: seq<byte>, length: int)
  {
    length <= |data| && IsDnsPacket(data, length) && MIN_IP_HEADER <= HeaderLength(data)
  }

  /** The number of DNS octets after the IPv4 and UDP headers (`dnsLength`). */
  function DnsLength(data: seq<byte>, length: int): int
    requires IsBuildableQuery(data, length)
  {
    length - (HeaderLength(data) + UDP_HEADER)
  }

  /**
   * The IPv4 header of a reply, apart from its checksum field (octets 10 and 11): the query's
   * header with the source (octets 12-15) and destination (octets 16-19) addresses swapped and
   * the total length (octets 2-3) set to the length of the reply.
   */
  ghost predicate SwappedIpHeader(p: seq<byte>, data: seq<byte>, hl: nat)
    requires MIN_IP_HEADER <= hl <= |data| && hl <= |p|
  {
    && (forall i :: 0 <= i < hl && i != 2 && i != 3 && i != 10 && i != 11 && !(12 <= i < 20) ==>
          p[i] == data[i])
    && Be16(p, 2) == |p|
    && p[12..16] == data[16..20]
    && p[16..20] == data[12..16]
  }

  /**
   * The UDP header of a reply carrying `responseLen` octets: the query's ports swapped, the
   * length of the new datagram, and a zero (absent) checksum.
   */
  ghost predicate SwappedUdpHeader(p: seq<byte>, data: seq<byte>, hl: nat, responseLen: nat)
    requires hl + 4 <= |data| && hl + UDP_HEADER <= |p|
  {
    && p[hl..hl + 2] == data[hl + 2..hl + 4]
    && p[hl + 2..hl + 4] == data[hl..hl + 2]
    && Be16(p, hl + 4) == UDP_HEADER + responseLen
    && p[hl + 6] == 0 && p[hl + 7] == 0
  }

  /**
   * What the reply to the query in `data[..length]` carrying `response` is, octet by octet: the
   * swapped IPv4 header with its checksum computed over the header with a zeroed checksum field,
   * the swapped UDP header, then the response.
   */
  ghost predicate IsReplyFor(reply: seq<byte>, data: seq<byte>, length: int, response: seq<byte>)
    requires IsBuildableQuery(data, length)
  {
    var hl := HeaderLength(data);
    && |reply| == hl + UDP_HEADER + |response|
    && SwappedIpHeader(reply, data, hl)
    && Be16(reply, 10) == Checksum(reply[..hl][10 := 0][11 := 0])
    && SwappedUdpHeader(reply, data, hl, |response|)
    && reply[hl + UDP_HEADER..] == response
  }

  /** The swapped IPv4 header survives writes outside octets 0-9 and 12 to `hl`. */
  lemma SwappedIpHeaderKept(p: seq<byte>, q: seq<byte>, data: seq<byte>, hl: nat)
    requires MIN_IP_HEADER <= hl <= |data| && hl <= |p| == |q|
    requires p[..10] == q[..10] && p[12..hl] == q[12..hl]
    requires SwappedIpHeader(p, data, hl)
    ensures SwappedIpHeader(q, data, hl)
  {
    forall i | 0 <= i < hl && i != 10 && i != 11
      ensures p[i] == q[i]
    {
      if i < 10 {
        assert p[i] == p[..10][i];
      } else {
        assert p[i] == p[12..hl][i - 12];
      }
    }
    assert q[12..16] == p[12..16];
    assert q[16..20] == p[16..20];
  }

  /** The swapped UDP header survives writes outside its eight octets. */
  lemma SwappedUdpHeaderKept(p: seq<byte>, q: seq<byte>, data: seq<byte>, hl: nat, responseLen: nat)
    requires hl + 4 <= |data| && hl + UDP_HEADER <= |p| == |q|
    requires p[hl..hl + UDP_HEADER] == q[hl..hl + UDP_HEADER]
    requires SwappedUdpHeader(p, data, hl, responseLen)
    ensures SwappedUdpHeader(q, data, hl, responseLen)
  {
    forall i | hl <= i < hl + UDP_HEADER
      ensures p[i] == q[i]
    {
      assert p[i] == p[hl..hl + UDP_HEADER][i - hl];
    }
    assert q[hl..hl + 2] == p[hl..hl + 2];
    assert q[hl + 2..hl + 4] == p[hl + 2..hl + 4];
  }

  /** `System.arraycopy(src, 0, dst, pos, src.length)`. */
  method ArrayCopy(src: seq<byte>, dst: array<byte>, pos: nat)
    requires pos + |src| <= dst.Length
    modifies dst
    ensures forall j :: 0 <= j < dst.Length ==>
              dst[j] == if pos <= j < pos + |src| then src[j - pos] else old(dst[j])
  {
    var k := 0;
    while k < |src|
      invariant 0 <= k <= |src|
      invariant forall j :: 0 <= j < dst.Length ==>
                  dst[j] == if pos <= j < pos + k then src[j - pos] else old(dst[j])
    {
      dst[pos + k] := src[k];
      k := k + 1;
    }
  }

  /**
   * Octets 0 to `hl` of the reply (DiscordiaVPNService.java, lines 246-255): the swapped IPv4
   * header.
   */
  method CopySwappedHeader(data: seq<byte>, hl: nat, dst: array<byte>)
    requires MIN_IP_HEADER <= hl <= |data| && hl <= dst.Length < WORD_LIMIT
    modifies dst
    ensures dst[hl..] == old(dst[hl..])
    ensures SwappedIpHeader(dst[..], data, hl)
  {
    ArrayCopy(data[..hl], dst, 0);
    ArrayCopy(data[12..16], dst, 16);
    ArrayCopy(data[16..20], dst, 12);
    var totalLen := dst.Length;
    dst[2] := Hi(totalLen);
    dst[3] := Lo(totalLen);
    Be16OfHiLo(dst[..], 2, totalLen);
  }

  /**
   * Octets `hl` to `hl + 8` of the reply (DiscordiaVPNService.java, lines 259-271): the swapped
   * UDP header.
   */
  method WriteUdpHeader(data: seq<byte>, hl: nat, responseLen: nat, dst: array<byte>)
    requires hl + 4 <= |data| && hl + UDP_HEADER <= dst.Length
    requires UDP_HEADER + responseLen < WORD_LIMIT
    modifies dst
    ensures dst[..hl] == old(dst[..hl]) && dst[hl + UDP_HEADER..] == old(dst[hl + UDP_HEADER..])
    ensures SwappedUdpHeader(dst[..], data, hl, responseLen)
  {
    dst[hl] := data[hl + 2];
    dst[hl + 1] := data[hl + 3];
    dst[hl + 2] := data[hl];
    dst[hl + 3] := data[hl + 1];
    var udpLen := UDP_HEADER + responseLen;
    dst[hl + 4] := Hi(udpLen);
    dst[hl + 5] := Lo(udpLen);
    dst[hl + 6] := 0;
    dst[hl + 7] := 0;
    Be16OfHiLo(dst[..], hl + 4, udpLen);
  }

  /** DiscordiaVPNService.java, lines 274-278: the DNS response after both headers. */
  method WritePayload(response: seq<byte>, start: nat, dst: array<byte>)
    requires start + |response| == dst.Length
    modifies dst
    ensures dst[..start] == old(dst[..start]) && dst[start..] == response
  {
    ArrayCopy(response, dst, start);
    assert dst[start..] == response by {
      forall j | 0 <= j < |response| ensures dst[start..][j] == response[j] {
        assert dst[start + j] == response[j];
      }
    }
  }

  /**
   * DiscordiaVPNService.java, lines 281-285: zero the checksum field, checksum the header, store
   * the checksum.
   */
  method WriteHeaderChecksum(dst: array<byte>, hl: nat)
    requires MIN_IP_HEADER <= hl <= dst.Length < WORD_LIMIT
    modifies dst
    ensures dst[..10] == old(dst[..10]) && dst[12..] == old(dst[12..])
    ensures Be16(dst[..], 10) == Checksum(dst[..hl][10 := 0][11 := 0])
    ensures Checksum(dst[..hl]) == 0
  {
    dst[10] := 0;
    dst[11] := 0;
    ghost var zeroed: seq<byte> := dst[..hl];
    var checksum := CalculateChecksum(dst, 0, hl);
    var high: byte, low: byte := Hi(checksum), Lo(checksum);
    dst[10] := high;
    dst[11] := low;
    assert dst[..hl][10 := 0][11 := 0] == zeroed;
    assert dst[..hl] == zeroed[10 := high][11 := low];
    ChecksumVerifies(zeroed);
    Be16OfHiLo(dst[..], 10, checksum);
  }

  /**
   * The packet-synthesis half of `handleDnsPacket`: given the query in `data[..length]` and the
   * resolver's answer, the IPv4/UDP packet written back to the TUN device, or nothing when the
   * query carries no DNS octets.
   */
  method BuildReply(data: seq<byte>, length: int, response: seq<byte>)
    returns (reply: Option<seq<byte>>)
    requires IsBuildableQuery(data, length)
    requires |response| <= MAX_DNS_RESPONSE
    ensures reply.Some? <==> DnsLength(data, length) > 0
    ensures reply.Some? ==> IsReplyFor(reply.value, data, length, response)
    ensures reply.Some? ==> Checksum(reply.value[..HeaderLength(data)]) == 0
  {
    var ipHeaderLen := (data[0] % 16) * 4;
    var dnsLength := length - (ipHeaderLen + UDP_HEADER);
    if dnsLength <= 0 {
      return None;
    }
    var responseLen := |response|;
    var responseData := new byte[ipHeaderLen + UDP_HEADER + responseLen];
    CopySwappedHeader(data, ipHeaderLen, responseData);
    ghost var withIp := responseData[..];
    WriteUdpHeader(data, ipHeaderLen, responseLen, responseData);
    ghost var withUdp := responseData[..];
    SameSlices(withIp, withUdp, ipHeaderLen, ipHeaderLen);
    SwappedIpHeaderKept(withIp, withUdp, data, ipHeaderLen);
    WritePayload(response, ipHeaderLen + UDP_HEADER, responseData);
    ghost var withPayload := responseData[..];
    SameSlices(withUdp, withPayload, ipHeaderLen, ipHeaderLen + UDP_HEADER);
    SwappedIpHeaderKept(withUdp, withPayload, data, ipHeaderLen);
    SwappedUdpHeaderKept(withUdp, withPayload, data, ipHeaderLen, responseLen);
    WriteHeaderChecksum(responseData, ipHeaderLen);
    var r := responseData[..];
    SameTail(withPayload, r, ipHeaderLen);
    SwappedIpHeaderKept(withPayload, r, data, ipHeaderLen);
    SwappedUdpHeaderKept(withPayload, r, data, ipHeaderLen, responseLen);
    reply := Some(r);
  }

  /** Sequences with equal prefixes of length `n` agree on the header slices inside it. */
  lemma SameSlices(p: seq<byte>, q: seq<byte>, hl: nat, n: nat)
    requires MIN_IP_HEADER <= hl <= n <= |p| == |q| && p[..n] == q[..n]
    ensures p[..10] == q[..10] && p[12..hl] == q[12..hl]
    ensures hl + UDP_HEADER <= n ==> p[hl..hl + UDP_HEADER] == q[hl..hl + UDP_HEADER]
  {
    forall i | 0 <= i < n ensures p[i] == q[i] {
      assert p[i] == p[..n][i] && q[i] == q[..n][i];
    }
  }

  /** Writing octets 10 and 11 only keeps everything from octet 12 on. */
  lemma SameTail(p: seq<byte>, q: seq<byte>, hl: nat)
    requires MIN_IP_HEADER <= hl && hl + UDP_HEADER <= |p| == |q|
    requires p[12..] == q[12..]
    ensures p[12..hl] == q[12..hl]
    ensures p[hl..hl + UDP_HEADER] == q[hl..hl + UDP_HEADER]
    ensures p[hl + UDP_HEADER..] == q[hl + UDP_HEADER..]
  {
    forall i | 12 <= i < |p| ensures p[i] == q[i] {
      assert p[i] == p[12..][i - 12] && q[i] == q[12..][i - 12];
    }
  }
}

module DnsReplies {
  import opened Bytes
  import opened DnsPackets

  /** The fields of an IPv4/UDP datagram that a reply relates to its query. */
  datatype UdpView = UdpView(
    sourceAddress: seq<byte>,
    destinationAddress: seq<byte>,
    sourcePort: nat,
    destinationPort: nat,
    udpLength: nat,
    payload: seq<byte>)

  predicate HasUdpView(p: seq<byte>)
  {
    |p| > 0 && MIN_IP_HEADER <= HeaderLength(p) && HeaderLength(p) + UDP_HEADER <= |p|
  }

  function View(p: seq<byte>): UdpView
    requires HasUdpView(p)
  {
    var hl := HeaderLength(p);
    UdpView(p[12..16], p[16..20], Be16(p, hl), Be16(p, hl + 2), Be16(p, hl + 4), p[hl + UDP_HEADER..])
  }

  /**
   * Read as a datagram, the reply goes back the way the query came: addresses and ports swapped,
   * sent from the DNS port, carrying exactly the resolver's answer, with consistent UDP and IPv4
   * lengths. It is itself addressed to port 53 only when the query came from port 53.
   */
  lemma ReplyAnswersQuery(reply: seq<byte>, data: seq<byte>, length: int, response: seq<byte>)
    requires IsBuildableQuery(data, length) && DnsLength(data, length) > 0
    requires IsReplyFor(reply, data, length, response)
    ensures HasUdpView(data[..length]) && HasUdpView(reply)
    ensures HeaderLength(reply) == HeaderLength(data)
    ensures Version(reply) == IPV4_VERSION && Protocol(reply) == PROTOCOL_UDP
    ensures View(reply).sourceAddress == View(data[..length]).destinationAddress
    ensures View(reply).destinationAddress == View(data[..length]).sourceAddress
    ensures View(reply).sourcePort == View(data[..length]).destinationPort == DNS_PORT
    ensures View(reply).destinationPort == View(data[..length]).sourcePort
    ensures View(reply).payload == response
    ensures View(reply).udpLength == UDP_HEADER + |View(reply).payload|
    ensures Be16(reply, 2) == |reply|
    ensures IsDnsPacket(reply, |reply|) <==> View(data[..length]).sourcePort == DNS_PORT
  {
    var hl := HeaderLength(data);
    var q := data[..length];
    assert reply[0] == data[0] && reply[9] == data[9];
    assert q[0] == data[0];
    assert reply[hl] == reply[hl..hl + 2][0] && reply[hl + 1] == reply[hl..hl + 2][1];
    assert reply[hl + 2] == reply[hl + 2..hl + 4][0] && reply[hl + 3] == reply[hl + 2..hl + 4][1];
    assert forall i :: hl <= i < hl + 4 ==> q[i] == data[i];
    assert q[12..20] == data[12..20];
  }

  /** The description leaves no freedom: two packets that both satisfy it are the same packet. */
  lemma ReplyIsDetermined(r1: seq<byte>, r2: seq<byte>, data: seq<byte>, length: int, response: seq<byte>)
    requires IsBuildableQuery(data, length)
    requires IsReplyFor(r1, data, length, response) && IsReplyFor(r2, data, length, response)
    ensures r1 == r2
  {
    var hl := HeaderLength(data);
    IpHeadersAgree(r1, r2, data, hl);
    assert r1[..hl][10 := 0][11 := 0] == r2[..hl][10 := 0][11 := 0];
    Be16Injective(r1, r2, 10);
    assert r1[..hl] == r2[..hl];
    UdpHeadersAgree(r1, r2, data, hl, |response|);
    assert r1 == r1[..hl] + r1[hl..hl + UDP_HEADER] + r1[hl + UDP_HEADER..];
    assert r2 == r2[..hl] + r2[hl..hl + UDP_HEADER] + r2[hl + UDP_HEADER..];
  }

  /** Two swapped IPv4 headers of the same length agree everywhere but in the checksum field. */
  lemma IpHeadersAgree(r1: seq<byte>, r2: seq<byte>, data: seq<byte>, hl: nat)
    requires MIN_IP_HEADER <= hl <= |data| && hl <= |r1| == |r2|
    requires SwappedIpHeader(r1, data, hl) && SwappedIpHeader(r2, data, hl)
    ensures forall i :: 0 <= i < hl && i != 10 && i != 11 ==> r1[i] == r2[i]
  {
    Be16Injective(r1, r2, 2);
    forall i | 12 <= i < 20 ensures r1[i] == r2[i] {
      if i < 16 {
        assert r1[i] == r1[12..16][i - 12] && r2[i] == r2[12..16][i - 12];
      } else {
        assert r1[i] == r1[16..20][i - 16] && r2[i] == r2[16..20][i - 16];
      }
    }
  }

  /** Two swapped UDP headers for the same response length are equal. */
  lemma UdpHeadersAgree(r1: seq<byte>, r2: seq<byte>, data: seq<byte>, hl: nat, responseLen: nat)
    requires hl + 4 <= |data| && hl + UDP_HEADER <= |r1| && hl + UDP_HEADER <= |r2|
    requires SwappedUdpHeader(r1, data, hl, responseLen) && SwappedUdpHeader(r2, data, hl, responseLen)
    ensures r1[hl..hl + UDP_HEADER] == r2[hl..hl + UDP_HEADER]
  {
    Be16Injective(r1, r2, hl + 4);
    forall i | hl <= i < hl + 4 ensures r1[i] == r2[i] {
      if i < hl + 2 {
        assert r1[i] == r1[hl..hl + 2][i - hl] && r2[i] == r2[hl..hl + 2][i - hl];
      } else {
        assert r1[i] == r1[hl + 2..hl + 4][i - hl - 2] && r2[i] == r2[hl + 2..hl + 4][i - hl - 2];
      }
    }
  }

  lemma Be16Injective(s: seq<byte>, t: seq<byte>, i: nat)
    requires i + 1 < |s| && i + 1 < |t| && Be16(s, i) == Be16(t, i)
    ensures s[i] == t[i] && s[i + 1] == t[i + 1]
  {
  }
}

=== FILE: options.dfy ===
/** Optional values: Java's nullable references and Python's `None`. */
module Options {

  datatype Option<+T> = None | Some(value: T) {

    /** The value if present, the fallback otherwise (`x if x is not None else d`). */
    function GetOr(fallback: T): (r: T)
      ensures Some? ==> r == value
      ensures None? ==> r == fallback
    {
      match this
      case Some(v) => v
      case None => fallback
    }
  }
}

=== FILE: session.dfy ===
/**
 * The session controller `VPNEngine` of `main.py`: connected/disconnected state, the mode, the
 * optional connect timestamp, and the cumulative counters it keeps in the settings store. The
 * clock is the `now` parameter (microseconds, the resolution of `datetime.now()`); the platform
 * calls are oracle outcomes; the platform itself is fixed when the engine is made.
 */
module Session {
  import opened Options
  import opened Decimal
  import opened SettingsStore
  import VpnService

  const MICROS_PER_SECOND: int := 1_000_000
  const DEFAULT_MODE: string := "doh"

  /** Whether the Android VPN service is there (`IS_ANDROID`) or the desktop simulation runs. */
  datatype Platform = Desktop | Android

  /**
   * What the platform does in `_connect_android`: `VpnService.prepare` finds the permission
   * already granted, or the user grants it at the prompt, or is still asked after the prompt, or
   * some platform call raises.
   */
  datatype Permission = AlreadyGranted | GrantedOnPrompt | DeniedOnPrompt | Raises(message: string)

  /** What `startService` does with the STOP intent in `_disconnect_android`. */
  datatype StopOutcome = StopSent | StopRaises(message: string)

  // ---------------------------------------------------------------------------------------------
  // Time arithmetic

  /**
   * `int((now - start).total_seconds())`: the whole seconds between two timestamps, truncated
   * toward zero as Python's `int` of a float is.
   */
  function ElapsedSeconds(start: int, now: int): (n: int)
    ensures now >= start ==> 0 <= n * MICROS_PER_SECOND <= now - start < (n + 1) * MICROS_PER_SECOND
    ensures now < start ==> (n - 1) * MICROS_PER_SECOND < now - start <= n * MICROS_PER_SECOND <= 0
  {
    var d := now - start;
    if d >= 0 then d / MICROS_PER_SECOND else -((-d) / MICROS_PER_SECOND)
  }

  /**
   * `h, rem = divmod(n, 3600); m, s = divmod(rem, 60)`: hours, minutes below 60 and seconds below
   * 60 that add up to `n` (hours are not wrapped at a day).
   */
  function Hms(n: int): (hms: (int, int, int))
    ensures 0 <= hms.1 < 60 && 0 <= hms.2 < 60
    ensures n == hms.0 * 3600 + hms.1 * 60 + hms.2
    ensures n >= 0 ==> hms.0 >= 0
  {
    var h, rem := n / 3600, n % 3600;
    (h, rem / 60, rem % 60)
  }

  /** `f"{h:02d}:{m:02d}:{s:02d}"`. */
  function FormatHms(n: int): string
  {
    var (h, m, s) := Hms(n);
    Pad2(h) + ":" + Pad2(m) + ":" + Pad2(s)
  }

  /** Reads `H...H:MM:SS` back: the hours are everything before the last six characters. */
  function ParseHms(t: string): int
    requires |t| >= 6
    requires AllDigits(t[..|t| - 6]) && AllDigits(t[|t| - 5..|t| - 3]) && AllDigits(t[|t| - 2..])
  {
    Decimal.Value(t[..|t| - 6]) * 3600 + Decimal.Value(t[|t| - 5..|t| - 3]) * 60
      + Decimal.Value(t[|t| - 2..])
  }

  /**
   * `t` is at least `HH:MM:SS`, with its colons in place, minutes and seconds below 60, hours
   * zero-filled to two digits and otherwise without a leading zero, and reads back as `n` seconds.
   */
  predicate ReadsAs(t: string, n: int)
  {
    && |t| >= 8 && t[|t| - 3] == ':' && t[|t| - 6] == ':'
    && AllDigits(t[..|t| - 6]) && AllDigits(t[|t| - 5..|t| - 3]) && AllDigits(t[|t| - 2..])
    && Decimal.Value(t[|t| - 5..|t| - 3]) < 60 && Decimal.Value(t[|t| - 2..]) < 60
    && (|t| == 8 || t[0] != '0')
    && ParseHms(t) == n
  }

  /** Every non-negative number of seconds is written so that it reads back as itself. */
  lemma {:induction false} FormatHmsRoundTrip(n: nat)
    ensures ReadsAs(FormatHms(n), n)
  {
    var (h, m, s) := Hms(n);
    FieldsReadAs(Pad2(h), Pad2(m), Pad2(s), h, m, s);
  }

  /** Three fields in the shape `format(x, "02d")` gives them, joined by colons, read back. */
  lemma {:induction false} FieldsReadAs(hs: string, ms: string, ss: string, h: nat, m: nat, s: nat)
    requires |hs| >= 2 && AllDigits(hs) && Decimal.Value(hs) == h && (|hs| == 2 || hs[0] != '0')
    requires |ms| == 2 && AllDigits(ms) && Decimal.Value(ms) == m && m < 60
    requires |ss| == 2 && AllDigits(ss) && Decimal.Value(ss) == s && s < 60
    ensures ReadsAs(hs + ":" + ms + ":" + ss, h * 3600 + m * 60 + s)
  {
    var t := hs + ":" + ms + ":" + ss;
    assert t[..|t| - 6] == hs;
    assert t[|t| - 5..|t| - 3] == ms;
    assert t[|t| - 2..] == ss;
    assert t[0] == hs[0];
  }

  /**
   * `t` is `-H...H:MM:SS`: a minus sign, hours without a leading zero, minutes and seconds below
   * 60, and it reads back as `n` seconds with the hours counted negative and the minutes and
   * seconds added to them, as `divmod` split them.
   */
  predicate ReadsAsNegative(t: string, n: int)
  {
    && |t| >= 8 && t[0] == '-' && t[|t| - 3] == ':' && t[|t| - 6] == ':'
    && AllDigits(t[1..|t| - 6]) && AllDigits(t[|t| - 5..|t| - 3]) && AllDigits(t[|t| - 2..])
    && t[1] != '0'
    && Decimal.Value(t[|t| - 5..|t| - 3]) < 60 && Decimal.Value(t[|t| - 2..]) < 60
    && var hours: int := Decimal.Value(t[1..|t| - 6]);
       -hours * 3600 + Decimal.Value(t[|t| - 5..|t| - 3]) * 60 + Decimal.Value(t[|t| - 2..]) == n
  }

  /**
   * A negative number of seconds (a clock that went backwards) is written with negative hours
   * and non-negative minutes and seconds, and reads back as itself.
   */
  lemma {:induction false} FormatHmsNegative(n: int)
    requires n < 0
    ensures ReadsAsNegative(FormatHms(n), n)
  {
    var (h, m, s) := Hms(n);
    NegativeHours(n, h);
    NegativeFieldsReadAs(Digits(-h), Pad2(m), Pad2(s), -h, m, s);
  }

  /** The hours of a negative number of seconds are negative and written as `str(h)`. */
  lemma {:induction false} NegativeHours(n: int, h: int)
    requires n < 0 && h == Hms(n).0
    ensures h < 0 && Pad2(h) == "-" + Digits(-h)
    ensures |Digits(-h)| >= 1 && AllDigits(Digits(-h)) && Decimal.Value(Digits(-h)) == -h
    ensures Digits(-h)[0] != '0'
  {
    assert h * 3600 <= n;
    ValueOfDigits(-h);
    LeadingDigitOfPositive(-h);
  }

  /** A minus sign, hour digits and two `02d` fields joined by colons, read back. */
  lemma {:induction false} NegativeFieldsReadAs(ds: string, ms: string, ss: string, k: int, m: int, s: int)
    requires |ds| >= 1 && AllDigits(ds) && Decimal.Value(ds) == k && ds[0] != '0'
    requires |ms| == 2 && AllDigits(ms) && Decimal.Value(ms) == m && m < 60
    requires |ss| == 2 && AllDigits(ss) && Decimal.Value(ss) == s && s < 60
    ensures ReadsAsNegative("-" + ds + ":" + ms + ":" + ss, -k * 3600 + m * 60 + s)
  {
    var t := "-" + ds + ":" + ms + ":" + ss;
    assert t[1..|t| - 6] == ds;
    assert t[|t| - 5..|t| - 3] == ms;
    assert t[|t| - 2..] == ss;
    assert t[1] == ds[0];
  }

  /** Python's `str.upper()` on ASCII letters. */
  function Upper(s: string): (r: string)
    ensures |r| == |s|
    ensures forall i :: 0 <= i < |s| ==>
      r[i] == if 'a' <= s[i] <= 'z' then (s[i] as int - 32) as char else s[i]
  {
    if s == [] then []
    else [if 'a' <= s[0] <= 'z' then (s[0] as int - 32) as char else s[0]] + Upper(s[1..])
  }

  // ---------------------------------------------------------------------------------------------
  // The intent handed to the VPN service

  /** A string value becomes a string extra; anything else reads as absent on the Java side. */
  function StringExtra(v: Value): Option<string>
  {
    if v.Str? then Some(v.s) else None
  }

  function BoolExtra(v: Value): Option<bool>
  {
    if v.Bool? then Some(v.b) else None
  }

  /** The START intent `_connect_android` builds from the mode and the settings. */
  function StartIntent(mode: string, data: map<string, Value>): VpnService.Intent
  {
    VpnService.Intent(
      Some("START"),
      Some(mode),
      StringExtra(Lookup(data, DNS_PRIMARY, Str("1.1.1.1"))),
      StringExtra(Lookup(data, DNS_SECONDARY, Str("1.0.0.1"))),
      BoolExtra(Lookup(data, BLOCK_ADS, Bool(false))),
      BoolExtra(Lookup(data, SPLIT_TUNNEL, Bool(true))))
  }

  /** The STOP intent `_disconnect_android` sends: the action and no extras. */
  const STOP_INTENT: VpnService.Intent := VpnService.Intent(Some("STOP"), None, None, None, None, None)

  /**
   * The STOP intent `disconnect` sends makes a service stop, whatever it was doing, and keeps
   * the configuration it last stored.
   */
  method ServiceStopsOnStop(service: VpnService.DiscordiaVpnService, outcome: VpnService.EstablishOutcome)
    returns (result: int, applied: Option<VpnService.InterfaceConfig>)
    requires service.Valid()
    modifies service
    ensures service.Valid() && !service.isRunning && service.vpnInterface == None
    ensures service.Config() == old(service.Config())
    ensures result == VpnService.START_NOT_STICKY && applied == None
  {
    result, applied := service.OnStartCommand(Some(STOP_INTENT), outcome);
  }

  /**
   * The service configures itself from exactly what the settings hold: the mode asked for, both
   * DNS servers and both switches.
   */
  lemma ServiceReceivesSettings(mode: string, data: map<string, Value>)
    requires Defaults().Keys <= data.Keys
    requires data[DNS_PRIMARY].Str? && data[DNS_SECONDARY].Str?
    requires data[BLOCK_ADS].Bool? && data[SPLIT_TUNNEL].Bool?
    ensures VpnService.ConfigOf(StartIntent(mode, data)) ==
      VpnService.ServiceConfig(mode, data[DNS_PRIMARY].s, data[DNS_SECONDARY].s,
                               data[BLOCK_ADS].b, data[SPLIT_TUNNEL].b)
    ensures StartIntent(mode, data).action != Some("STOP")
  {
  }

  // ---------------------------------------------------------------------------------------------

  /** The two counters hold integers (as the defaults do and the engine keeps them). */
  predicate CountersAreInts(data: map<string, Value>)
  {
    && TOTAL_CONNECTED_TIME in data && data[TOTAL_CONNECTED_TIME].Int?
    && TOTAL_CONNECTIONS in data && data[TOTAL_CONNECTIONS].Int?
  }

  class VpnEngine {
    const platform: Platform
    const settings: Settings
    var connected: bool
    var mode: string
    /** The connect timestamp in microseconds, if any. */
    var connectTime: Option<int>

    /** Connected exactly when a timestamp is present; the counters are integers. */
    ghost predicate Valid()
      reads this, settings
    {
      && settings.Valid()
      && CountersAreInts(settings.data)
      && (connected <==> connectTime.Some?)
    }

    function TotalConnectedTime(): int
      reads this, settings
      requires Valid()
    {
      settings.data[TOTAL_CONNECTED_TIME].i
    }

    function TotalConnections(): int
      reads this, settings
      requires Valid()
    {
      settings.data[TOTAL_CONNECTIONS].i
    }

    constructor (platform: Platform, settings: Settings)
      requires settings.Valid() && CountersAreInts(settings.data)
      ensures Valid()
      ensures this.platform == platform && this.settings == settings
      ensures !connected && mode == DEFAULT_MODE && connectTime == None
    {
      this.platform := platform;
      this.settings := settings;
      connected := false;
      mode := DEFAULT_MODE;
      connectTime := None;
    }

    /** `uptime_seconds`: 0 without a timestamp, the elapsed whole seconds otherwise. */
    function UptimeSeconds(now: int): (n: int)
      reads this
      ensures connectTime == None ==> n == 0
      ensures connectTime.Some? && now >= connectTime.value ==>
        0 <= n * MICROS_PER_SECOND <= now - connectTime.value < (n + 1) * MICROS_PER_SECOND
      ensures connectTime.Some? && now < connectTime.value ==>
        (n - 1) * MICROS_PER_SECOND < now - connectTime.value <= n * MICROS_PER_SECOND <= 0
    {
      if connectTime == None then 0 else ElapsedSeconds(connectTime.value, now)
    }

    /**
     * `uptime_str`: "00:00:00" without a timestamp, the elapsed time as `HH:MM:SS` otherwise. A
     * clock that went back by a second or more gives negative hours, as `divmod` floors.
     */
    function UptimeStr(now: int): (t: string)
      reads this
      ensures connectTime == None ==> t == "00:00:00"
      ensures connectTime.Some? && UptimeSeconds(now) >= 0 ==> ReadsAs(t, UptimeSeconds(now))
      ensures connectTime.Some? && UptimeSeconds(now) < 0 ==> ReadsAsNegative(t, UptimeSeconds(now))
    {
      if connectTime == None then "00:00:00"
      else
        var n := ElapsedSeconds(connectTime.value, now);
        if n >= 0 then FormatHmsRoundTrip(n); FormatHms(n)
        else FormatHmsNegative(n); FormatHms(n)
    }

    /**
     * `connect(mode)`: records the mode, then either simulates a connection (always succeeding,
     * counting nothing) or goes through the Android permission and service start.
     */
    method Connect(requested: string, now: int, permission: Permission)
      returns (ok: bool, message: string, request: Option<VpnService.Intent>)
      requires Valid()
      modifies this, settings
      ensures Valid() && mode == requested
      ensures TotalConnectedTime() == old(TotalConnectedTime())
      ensures TotalConnections() == old(TotalConnections()) + (if platform == Android && ok then 1 else 0)
      ensures platform == Desktop ==>
        && ok && connected && connectTime == Some(now)
        && settings.data == old(settings.data)
        && message == "Connected (simulated — " + requested + ")"
        && request == None
      ensures platform == Android && (permission == AlreadyGranted || permission == GrantedOnPrompt) ==>
        && ok && connected && connectTime == Some(now)
        && settings.data == old(settings.data)[TOTAL_CONNECTIONS := Int(old(TotalConnections()) + 1)]
        && message == "Connected via " + Upper(requested)
        && request == Some(StartIntent(requested, old(settings.data)))
      ensures platform == Android && (permission == DeniedOnPrompt || permission.Raises?) ==>
        && !ok && request == None
        && message == (if permission.Raises? then permission.message else "VPN permission denied by user")
        && connected == old(connected) && connectTime == old(connectTime)
        && settings.data == old(settings.data)
    {
      mode := requested;
      if platform == Android {
        ok, message, request := ConnectAndroid(requested, now, permission);
      } else {
        connected := true;
        connectTime := Some(now);
        ok, message, request := true, "Connected (simulated — " + requested + ")", None;
      }
    }

    /**
     * `disconnect()`: adds the elapsed whole seconds to the connected-time counter when a
     * timestamp is present, then clears the state, on the desktop or through the Android service.
     */
    method Disconnect(now: int, stop: StopOutcome)
      returns (ok: bool, message: string, request: Option<VpnService.Intent>)
      requires Valid()
      modifies this, settings
      ensures Valid()
      ensures !connected && connectTime == None && mode == old(mode)
      ensures TotalConnections() == old(TotalConnections())
      ensures old(connectTime).Some? && now >= old(connectTime).value ==>
        TotalConnectedTime() >= old(TotalConnectedTime())
      ensures (platform == Desktop || stop == StopSent) ==>
        && ok && message == "Disconnected"
        && settings.data == if old(connectTime).Some? then
             old(settings.data)[TOTAL_CONNECTED_TIME :=
               Int(old(TotalConnectedTime()) + ElapsedSeconds(old(connectTime).value, now))]
           else old(settings.data)
      ensures platform == Android && stop.StopRaises? ==>
        !ok && message == stop.message && settings.data == old(settings.data)
      ensures request == if platform == Android && stop == StopSent then Some(STOP_INTENT) else None
    {
      if platform == Android {
        ok, message, request := DisconnectAndroid(now, stop);
      } else {
        AddSessionTime(now);
        connected := false;
        connectTime := None;
        ok, message, request := true, "Disconnected", None;
      }
    }

    /** `_connect_android`. */
    method ConnectAndroid(requested: string, now: int, permission: Permission)
      returns (ok: bool, message: string, request: Option<VpnService.Intent>)
      requires Valid()
      modifies this, settings
      ensures Valid() && mode == old(mode)
      ensures (permission == AlreadyGranted || permission == GrantedOnPrompt) ==>
        && ok && connected && connectTime == Some(now)
        && settings.data == old(settings.data)[TOTAL_CONNECTIONS := Int(old(TotalConnections()) + 1)]
        && message == "Connected via " + Upper(requested)
        && request == Some(StartIntent(requested, old(settings.data)))
      ensures (permission == DeniedOnPrompt || permission.Raises?) ==>
        && !ok && request == None
        && message == (if permission.Raises? then permission.message else "VPN permission denied by user")
        && connected == old(connected) && connectTime == old(connectTime)
        && settings.data == old(settings.data)
    {
      match permission
      case Raises(text) =>
        return false, text, None;
      case DeniedOnPrompt =>
        return false, "VPN permission denied by user", None;
      case _ =>
        request := Some(StartIntent(requested, settings.data));
        connected := true;
        connectTime := Some(now);
        var count := settings.Get(TOTAL_CONNECTIONS, Int(0)).i + 1;
        settings.Set(TOTAL_CONNECTIONS, Int(count));
        ok, message := true, "Connected via " + Upper(requested);
    }

    /** `_disconnect_android`: the local state is cleared even when sending STOP raises. */
    method DisconnectAndroid(now: int, stop: StopOutcome)
      returns (ok: bool, message: string, request: Option<VpnService.Intent>)
      requires Valid()
      modifies this, settings
      ensures Valid()
      ensures !connected && connectTime == None && mode == old(mode)
      ensures stop == StopSent ==>
        && ok && message == "Disconnected"
        && settings.data == if old(connectTime).Some? then
             old(settings.data)[TOTAL_CONNECTED_TIME :=
               Int(old(TotalConnectedTime()) + ElapsedSeconds(old(connectTime).value, now))]
           else old(settings.data)
      ensures stop == StopSent ==> request == Some(STOP_INTENT)
      ensures stop.StopRaises? ==>
        !ok && message == stop.message && settings.data == old(settings.data) && request == None
    {
      match stop
      case StopRaises(text) =>
        connected := false;
        connectTime := None;
        return false, text, None;
      case StopSent =>
        AddSessionTime(now);
        connected := false;
        connectTime := None;
        ok, message, request := true, "Disconnected", Some(STOP_INTENT);
    }

    /** The shared step of both disconnect paths: bank the session's whole seconds, if any. */
    method AddSessionTime(now: int)
      requires Valid()
      modifies settings
      ensures Valid()
      ensures settings.data == if connectTime.Some? then
        old(settings.data)[TOTAL_CONNECTED_TIME :=
          Int(old(TotalConnectedTime()) + ElapsedSeconds(connectTime.value, now))]
        else old(settings.data)
    {
      if connectTime.Some? {
        var elapsed := UptimeSeconds(now);
        var total := settings.Get(TOTAL_CONNECTED_TIME, Int(0)).i;
        settings.Set(TOTAL_CONNECTED_TIME, Int(total + elapsed));
      }
    }
  }

  // ---------------------------------------------------------------------------------------------
  // Sessions as the source runs them

  /**
   * A simulated session of two seconds adds 2 to the connected time and nothing to the number of
   * connections; a second disconnect changes neither counter.
   */
  method SimulatedSession(settings: Settings, start: int)
    returns (engine: VpnEngine)
    requires settings.Valid() && CountersAreInts(settings.data)
    modifies settings
    ensures engine.Valid() && !engine.connected && engine.settings == settings
    ensures engine.TotalConnectedTime() == old(settings.data[TOTAL_CONNECTED_TIME].i) + 2
    ensures engine.TotalConnections() == old(settings.data[TOTAL_CONNECTIONS].i)
  {
    engine := new VpnEngine(Desktop, settings);
    var ok, message, request := engine.Connect("doh", start, AlreadyGranted);
    assert ok && engine.connected;
    ok, message, request := engine.Disconnect(start + 2 * MICROS_PER_SECOND, StopSent);
    assert ok;
    ghost var time, count := engine.TotalConnectedTime(), engine.TotalConnections();
    ok, message, request := engine.Disconnect(start + 5 * MICROS_PER_SECOND, StopSent);
    assert engine.TotalConnectedTime() == time && engine.TotalConnections() == count;
  }

  /**
   * On Android a granted connection counts once, a denied one not at all, and leaves the state
   * as it was apart from the mode.
   */
  method AndroidConnections(engine: VpnEngine, now: int)
    requires engine.Valid() && engine.platform == Android && !engine.connected
    modifies engine, engine.settings
    ensures engine.Valid() && engine.connected
    ensures engine.TotalConnections() == old(engine.TotalConnections()) + 1
    ensures engine.TotalConnectedTime() == old(engine.TotalConnectedTime())
  {
    var ok, message, request := engine.Connect("wireguard", now, DeniedOnPrompt);
    assert !ok && !engine.connected && engine.connectTime == None && engine.mode == "wireguard";
    ok, message, request := engine.Connect("doh", now, GrantedOnPrompt);
    assert ok && engine.mode == "doh";
  }
}

=== FILE: settings.dfy ===
/**
 * The settings store of `main.py`: a mapping that starts as the defaults and is overlaid by the
 * mapping read from the settings file, with `get` falling back to a caller's default and `set`
 * updating one key.
 */
module SettingsStore {

  /** The JSON values the store holds; `Other` stands for floats, lists and objects. */
  datatype Value = Str(s: string) | Bool(b: bool) | Int(i: int) | Null | Other

  const DNS_PRIMARY: string := "dns_primary"
  const DNS_SECONDARY: string := "dns_secondary"
  const AUTO_CONNECT: string := "auto_connect"
  const BLOCK_ADS: string := "block_ads"
  const SPLIT_TUNNEL: string := "split_tunnel"
  const PROTOCOL: string := "protocol"
  const THEME: string := "theme"
  const FIRST_RUN: string := "first_run"
  const WG_CONFIG: string := "wg_config"
  const TOTAL_CONNECTED_TIME: string := "total_connected_time"
  const TOTAL_CONNECTIONS: string := "total_connections"

  /** `Settings._defaults`. */
  function Defaults(): map<string, Value>
  {
    map[
      DNS_PRIMARY := Str("1.1.1.1"),
      DNS_SECONDARY := Str("1.0.0.1"),
      AUTO_CONNECT := Bool(false),
      BLOCK_ADS := Bool(false),
      SPLIT_TUNNEL := Bool(true),
      PROTOCOL := Str("doh"),
      THEME := Str("cyberpunk"),
      FIRST_RUN := Bool(true),
      WG_CONFIG := Str(""),
      TOTAL_CONNECTED_TIME := Int(0),
      TOTAL_CONNECTIONS := Int(0)
    ]
  }

  /** What reading the settings file yields: no file, a file that fails to parse, or a mapping. */
  datatype SettingsFile = Absent | Unreadable | Stored(saved: map<string, Value>)

  /**
   * `load`: a stored mapping overrides exactly its own keys and every other key keeps its value;
   * a missing or unreadable file changes nothing.
   */
  function Loaded(current: map<string, Value>, file: SettingsFile): (m: map<string, Value>)
    ensures file.Stored? ==> m.Keys == current.Keys + file.saved.Keys
    ensures file.Stored? ==> forall k :: k in file.saved ==> m[k] == file.saved[k]
    ensures file.Stored? ==> forall k :: k in current && k !in file.saved ==> m[k] == current[k]
    ensures !file.Stored? ==> m == current
  {
    if file.Stored? then current + file.saved else current
  }

  /**
   * Reloading what `save` writes: a mapping that holds every default key comes back unchanged
   * when it is loaded over the defaults.
   */
  lemma ReloadAfterSave(data: map<string, Value>)
    requires Defaults().Keys <= data.Keys
    ensures Loaded(Defaults(), Stored(data)) == data
  {
    var m := Loaded(Defaults(), Stored(data));
    assert m.Keys == data.Keys;
    forall k | k in m ensures m[k] == data[k] {
    }
  }

  /** `dict.get(key, default)` on a settings map. */
  function Lookup(data: map<string, Value>, key: string, default: Value): Value
  {
    if key in data then data[key] else default
  }

  class Settings {
    var data: map<string, Value>

    /** Loading never removes a key, so every default key stays present. */
    ghost predicate Valid()
      reads this
    {
      Defaults().Keys <= data.Keys
    }

    /** `Settings()`: the defaults, then `load`. */
    constructor (file: SettingsFile)
      ensures Valid()
      ensures data == Loaded(Defaults(), file)
    {
      data := Defaults();
      new;
      Load(file);
    }

    method Load(file: SettingsFile)
      modifies this
      ensures data == Loaded(old(data), file)
      ensures old(Valid()) ==> Valid()
    {
      if file.Stored? {
        data := data + file.saved;
      }
    }

    /** `get(key, default)`: the stored value, or `default` when the key is absent. */
    function Get(key: string, default: Value): (v: Value)
      reads this
      ensures key in data ==> v == data[key]
      ensures key !in data ==> v == default
    {
      Lookup(data, key, default)
    }

    /**
     * `set(key, value)`: afterwards `get(key)` is `value` and every other key reads as before.
     * (The synchronous `save` that follows is file I/O.)
     */
    method Set(key: string, value: Value)
      modifies this
      ensures data == old(data)[key := value]
      ensures forall k, d :: Get(k, d) == if k == key then value else old(Get(k, d))
      ensures old(Valid()) ==> Valid()
    {
      data := data[key := value];
    }
  }
}

=== FILE: settings_screen.dfy ===
/**
 * The logic of the settings screen in `main.py`: the DNS text fields fall back to their defaults
 * when left blank (after Python's `str.strip()`), the switches are stored as they are, and the
 * hours and minutes of the statistics label are the whole hours and minutes of the cumulative
 * connected time (the label's text itself is not modelled).
 */
module SettingsScreen {
  import opened Decimal
  import opened SettingsStore

  /**
   * The code points for which Python's `str.isspace()` holds, which are what `str.strip()`
   * removes: U+0009..U+000D, U+001C..U+0020, U+0085, U+00A0, U+1680, U+2000..U+200A, U+2028,
   * U+2029, U+202F, U+205F and U+3000.
   */
  predicate IsSpace(c: char)
  {
    var n := c as int;
    || 0x09 <= n <= 0x0D || 0x1C <= n <= 0x20 || n == 0x85 || n == 0xA0 || n == 0x1680
    || 0x2000 <= n <= 0x200A || n == 0x2028 || n == 0x2029 || n == 0x202F || n == 0x205F
    || n == 0x3000
  }

  predicate AllSpace(s: string)
  {
    forall i :: 0 <= i < |s| ==> IsSpace(s[i])
  }

  /** Where `lstrip` stops when it scans `s` forward from `k`: the first non-whitespace index. */
  function LeadingSpace(s: string, k: nat): (n: nat)
    requires k <= |s|
    ensures k <= n <= |s| && forall m :: k <= m < n ==> IsSpace(s[m])
    ensures n < |s| ==> !IsSpace(s[n])
    decreases |s| - k
  {
    if k < |s| && IsSpace(s[k]) then LeadingSpace(s, k + 1) else k
  }

  /** Where `rstrip` stops when it scans `s[lo..e]` backward from `e`: the end of the kept text. */
  function TrailingSpace(s: string, lo: nat, e: nat): (n: nat)
    requires lo <= e <= |s|
    ensures lo <= n <= e && forall m :: n <= m < e ==> IsSpace(s[m])
    ensures lo < n ==> !IsSpace(s[n - 1])
    decreases e - lo
  {
    if lo < e && IsSpace(s[e - 1]) then TrailingSpace(s, lo, e - 1) else e
  }

  /**
   * `s.strip()`: the slice of `s` between its leading and its trailing whitespace. It is empty
   * exactly when `s` is all whitespace, and otherwise neither begins nor ends with whitespace.
   */
  function Strip(s: string): (r: string)
    ensures var i := LeadingSpace(s, 0);
      && i + |r| <= |s| && r == s[i..i + |r|]
      && forall k :: i + |r| <= k < |s| ==> IsSpace(s[k])
    ensures r == [] <==> AllSpace(s)
    ensures r != [] ==> !IsSpace(r[0]) && !IsSpace(r[|r| - 1])
  {
    var i := LeadingSpace(s, 0);
    var e := TrailingSpace(s, i, |s|);
    // Both scans meet only when no character survives `lstrip`.
    assert e == i ==> i == |s|;
    s[i..e]
  }

  /** `text.strip() or fallback`: a blank field falls back, anything else is stored stripped. */
  function DnsField(text: string, fallback: string): (r: string)
    ensures AllSpace(text) ==> r == fallback
    ensures !AllSpace(text) ==> r == Strip(text) && r != [] && !IsSpace(r[0]) && !IsSpace(r[|r| - 1])
  {
    var stripped := Strip(text);
    if stripped == "" then fallback else stripped
  }

  /** `save_settings`: the five fields of the screen, each stored with `set`. */
  method SaveSettings(settings: Settings, dns1Text: string, dns2Text: string,
                      autoConnect: bool, blockAds: bool, splitTunnel: bool)
    requires settings.Valid()
    modifies settings
    ensures settings.Valid()
    ensures settings.data == old(settings.data)
      [DNS_PRIMARY := Str(DnsField(dns1Text, "1.1.1.1"))]
      [DNS_SECONDARY := Str(DnsField(dns2Text, "1.0.0.1"))]
      [AUTO_CONNECT := Bool(autoConnect)]
      [BLOCK_ADS := Bool(blockAds)]
      [SPLIT_TUNNEL := Bool(splitTunnel)]
  {
    settings.Set(DNS_PRIMARY, Str(DnsField(dns1Text, "1.1.1.1")));
    settings.Set(DNS_SECONDARY, Str(DnsField(dns2Text, "1.0.0.1")));
    settings.Set(AUTO_CONNECT, Bool(autoConnect));
    settings.Set(BLOCK_ADS, Bool(blockAds));
    settings.Set(SPLIT_TUNNEL, Bool(splitTunnel));
  }

  /**
   * `h, rem = divmod(total_time, 3600); m, _ = divmod(rem, 60)`: the whole hours and the whole
   * minutes left over, so that `h` hours and `m` minutes fall short of the total by less than a
   * minute. Python's `divmod` floors, as Dafny's division by a positive number does.
   */
  function HoursMinutes(totalTime: int): (hm: (int, int))
    ensures 0 <= hm.1 < 60
    ensures hm.0 * 3600 + hm.1 * 60 <= totalTime < hm.0 * 3600 + hm.1 * 60 + 60
    ensures totalTime >= 0 ==> hm.0 >= 0
  {
    var h, rem := totalTime / 3600, totalTime % 3600;
    (h, rem / 60)
  }
}

=== FILE: vpn_service.dfy ===
/**
 * The lifecycle of `DiscordiaVPNService`: reading the start intent's extras with their defaults,
 * choosing the TUN interface's DNS servers and routes, the `isRunning` guard against a second
 * start, and `stopVpn`. The `VpnService.Builder` calls become the configuration value that
 * `startVpn` hands to `establish()`.
 */
module VpnService {
  import opened Options

  /** Android's `Service.START_STICKY` and `Service.START_NOT_STICKY`. */
  const START_STICKY: int := 1
  const START_NOT_STICKY: int := 2

  const SESSION_NAME: string := "DiscordiaVPN"
  const MTU: int := 1500
  const VPN_ADDRESS: string := "10.0.0.2"
  const VPN_ROUTE: string := "0.0.0.0"
  const DEFAULT_MODE: string := "doh"
  const DEFAULT_DNS_PRIMARY: string := "1.1.1.1"
  const DEFAULT_DNS_SECONDARY: string := "1.0.0.1"
  /** Public resolvers routed into the tunnel in split mode as well. */
  const GOOGLE_DNS_PRIMARY: string := "8.8.8.8"
  const GOOGLE_DNS_SECONDARY: string := "8.8.4.4"

  /**
   * The parts of an `Intent` the service reads. An extra is `None` when it is absent (or of
   * another type), which is when `getStringExtra` returns null and `getBooleanExtra` its default.
   */
  datatype Intent = Intent(
    action: Option<string>,
    mode: Option<string>,
    dnsPrimary: Option<string>,
    dnsSecondary: Option<string>,
    blockAds: Option<bool>,
    splitTunnel: Option<bool>)

  /** The configuration fields `onStartCommand` extracts. */
  datatype ServiceConfig = ServiceConfig(
    mode: string,
    dnsPrimary: string,
    dnsSecondary: string,
    blockAds: bool,
    splitTunnel: bool)

  /** An IPv4 route: an address and a prefix length, as `Builder.addRoute` takes them. */
  datatype Route = Route(address: string, prefixLength: nat)

  /** What `startVpn` configures on the `Builder` before calling `establish()`. */
  datatype InterfaceConfig = InterfaceConfig(
    session: string,
    mtu: int,
    address: Route,
    dnsServers: seq<string>,
    routes: seq<Route>)

  /** What `establish()` and the rest of `startVpn`'s `try` block do: a platform outcome. */
  datatype EstablishOutcome =
    | Established     // an interface is returned and the packet thread starts
    | ReturnedNull    // `establish()` returns null (the app is not prepared)
    | Threw           // any exception inside the `try` block

  /** Config extraction in `onStartCommand`: each absent extra takes its default. */
  function ConfigOf(intent: Intent): (c: ServiceConfig)
    ensures intent.mode == None ==> c.mode == DEFAULT_MODE
    ensures intent.mode.Some? ==> c.mode == intent.mode.value
    ensures intent.dnsPrimary == None ==> c.dnsPrimary == DEFAULT_DNS_PRIMARY
    ensures intent.dnsPrimary.Some? ==> c.dnsPrimary == intent.dnsPrimary.value
    ensures intent.dnsSecondary == None ==> c.dnsSecondary == DEFAULT_DNS_SECONDARY
    ensures intent.dnsSecondary.Some? ==> c.dnsSecondary == intent.dnsSecondary.value
    ensures c.blockAds == (intent.blockAds == Some(true))
    ensures c.splitTunnel == (intent.splitTunnel != Some(false))
  {
    ServiceConfig(
      intent.mode.GetOr(DEFAULT_MODE),
      intent.dnsPrimary.GetOr(DEFAULT_DNS_PRIMARY),
      intent.dnsSecondary.GetOr(DEFAULT_DNS_SECONDARY),
      intent.blockAds.GetOr(false),
      intent.splitTunnel.GetOr(true))
  }

  /** The routes `startVpn` adds: four host routes in split mode, the default route otherwise. */
  function Routes(splitTunnel: bool, dnsPrimary: string, dnsSecondary: string): seq<Route>
  {
    if splitTunnel then
      [Route(dnsPrimary, 32), Route(dnsSecondary, 32),
       Route(GOOGLE_DNS_PRIMARY, 32), Route(GOOGLE_DNS_SECONDARY, 32)]
    else
      [Route(VPN_ROUTE, 0)]
  }

  /** Whether a route covers an address; only the /0 and /32 prefixes occur here. */
  predicate Covers(route: Route, address: string)
  {
    route.prefixLength == 0 || (route.prefixLength == 32 && route.address == address)
  }

  /** Whether the traffic to an address enters the tunnel. */
  predicate Routed(routes: seq<Route>, address: string)
  {
    exists i :: 0 <= i < |routes| && Covers(routes[i], address)
  }

  /**
   * Split mode sends exactly the two configured resolvers and Google's two into the tunnel;
   * full mode sends every address.
   */
  lemma RoutedAddresses(splitTunnel: bool, dnsPrimary: string, dnsSecondary: string, address: string)
    ensures splitTunnel ==>
      (Routed(Routes(splitTunnel, dnsPrimary, dnsSecondary), address) <==>
        address in [dnsPrimary, dnsSecondary, GOOGLE_DNS_PRIMARY, GOOGLE_DNS_SECONDARY])
    ensures !splitTunnel ==> Routed(Routes(splitTunnel, dnsPrimary, dnsSecondary), address)
  {
    var routes := Routes(splitTunnel, dnsPrimary, dnsSecondary);
    if splitTunnel {
      if address == dnsPrimary {
        assert Covers(routes[0], address);
      } else if address == dnsSecondary {
        assert Covers(routes[1], address);
      } else if address == GOOGLE_DNS_PRIMARY {
        assert Covers(routes[2], address);
      } else if address == GOOGLE_DNS_SECONDARY {
        assert Covers(routes[3], address);
      }
    } else {
      assert Covers(routes[0], address);
    }
  }

  /** The builder configuration `startVpn` establishes. */
  function BuilderConfig(dnsPrimary: string, dnsSecondary: string, splitTunnel: bool): (c: InterfaceConfig)
    ensures c.dnsServers == [dnsPrimary, dnsSecondary]
    ensures forall a :: a in c.dnsServers ==> Routed(c.routes, a)
  {
    RoutedAddresses(splitTunnel, dnsPrimary, dnsSecondary, dnsPrimary);
    RoutedAddresses(splitTunnel, dnsPrimary, dnsSecondary, dnsSecondary);
    InterfaceConfig(SESSION_NAME, MTU, Route(VPN_ADDRESS, 32), [dnsPrimary, dnsSecondary],
                    Routes(splitTunnel, dnsPrimary, dnsSecondary))
  }

  class DiscordiaVpnService {
    var mode: string
    var dnsPrimary: string
    var dnsSecondary: string
    var blockAds: bool
    var splitTunnel: bool
    var isRunning: bool
    /** The established TUN interface, represented by the configuration it was built from. */
    var vpnInterface: Option<InterfaceConfig>
    /** Whether a packet thread is held. */
    var vpnThread: bool

    /** Running, holding an interface and holding a thread go together. */
    ghost predicate Valid()
      reads this
    {
      (isRunning <==> vpnInterface.Some?) && (isRunning <==> vpnThread)
    }

    function Config(): ServiceConfig
      reads this
    {
      ServiceConfig(mode, dnsPrimary, dnsSecondary, blockAds, splitTunnel)
    }

    /** The field initialisers. */
    constructor ()
      ensures Valid() && !isRunning
      ensures Config() == ServiceConfig(DEFAULT_MODE, DEFAULT_DNS_PRIMARY, DEFAULT_DNS_SECONDARY, false, true)
    {
      mode := DEFAULT_MODE;
      dnsPrimary := DEFAULT_DNS_PRIMARY;
      dnsSecondary := DEFAULT_DNS_SECONDARY;
      blockAds := false;
      splitTunnel := true;
      isRunning := false;
      vpnInterface := None;
      vpnThread := false;
    }

    /**
     * `onStartCommand`: no intent, nothing; a STOP action stops the tunnel; anything else stores
     * the extras (defaults for absent ones) and starts the tunnel.
     */
    method OnStartCommand(intent: Option<Intent>, outcome: EstablishOutcome)
      returns (result: int, applied: Option<InterfaceConfig>)
      requires Valid()
      modifies this
      ensures Valid()
      ensures intent == None ==>
        result == START_NOT_STICKY && applied == None && unchanged(this)
      ensures intent.Some? && intent.value.action == Some("STOP") ==>
        && result == START_NOT_STICKY && applied == None
        && !isRunning && Config() == old(Config())
      ensures intent.Some? && intent.value.action != Some("STOP") ==>
        && result == START_STICKY
        && Config() == ConfigOf(intent.value)
        && (old(isRunning) ==>
              applied == None && isRunning && vpnInterface == old(vpnInterface))
        && (!old(isRunning) ==>
              applied == Some(BuilderConfig(Config().dnsPrimary, Config().dnsSecondary, Config().splitTunnel))
              && (isRunning <==> outcome == Established)
              && (isRunning ==> vpnInterface == applied))
    {
      if intent == None {
        return START_NOT_STICKY, None;
      }
      var extras := intent.value;
      if extras.action == Some("STOP") {
        StopVpn();
        return START_NOT_STICKY, None;
      }
      var config := ConfigOf(extras);
      mode := config.mode;
      dnsPrimary := config.dnsPrimary;
      dnsSecondary := config.dnsSecondary;
      blockAds := config.blockAds;
      splitTunnel := config.splitTunnel;
      applied := StartVpn(outcome);
      result := START_STICKY;
    }

    /**
     * `startVpn`: a no-op while running; otherwise builds the interface configuration from the
     * stored fields and, depending on `establish()`, starts running, stays stopped, or stops.
     */
    method StartVpn(outcome: EstablishOutcome) returns (applied: Option<InterfaceConfig>)
      requires Valid()
      modifies this`isRunning, this`vpnInterface, this`vpnThread
      ensures Valid()
      ensures old(isRunning) ==> applied == None && unchanged(this)
      ensures !old(isRunning) ==>
        && applied == Some(BuilderConfig(dnsPrimary, dnsSecondary, splitTunnel))
        && (isRunning <==> outcome == Established)
        && (isRunning ==> vpnInterface == applied)
    {
      if isRunning {
        return None;
      }
      var config := BuilderConfig(dnsPrimary, dnsSecondary, splitTunnel);
      applied := Some(config);
      match outcome
      case Established =>
        vpnInterface := Some(config);
        isRunning := true;
        vpnThread := true;
      case ReturnedNull =>
        vpnInterface := None;
      case Threw =>
        StopVpn();
    }

    /** `stopVpn`: clears the running flag and releases the thread and the interface. */
    method StopVpn()
      modifies this`isRunning, this`vpnInterface, this`vpnThread
      ensures !isRunning && vpnInterface == None && !vpnThread
      ensures Valid()
    {
      isRunning := false;
      if vpnThread {
        vpnThread := false;
      }
      if vpnInterface.Some? {
        vpnInterface := None;
      }
    }

    /** `onDestroy` and `onRevoke` both stop the tunnel. */
    method OnRevoke()
      modifies this`isRunning, this`vpnInterface, this`vpnThread
      ensures !isRunning && vpnInterface == None && !vpnThread
    {
      StopVpn();
    }
  }

  /**
   * A second start while running stores the new extras but leaves the interface the first start
   * established in place: the tunnel keeps the first configuration's DNS servers and routes.
   */
  method SecondStartIsNoOp(service: DiscordiaVpnService, first: Intent, second: Intent)
    returns (applied: Option<InterfaceConfig>, again: Option<InterfaceConfig>)
    requires service.Valid() && !service.isRunning
    requires first.action != Some("STOP") && second.action != Some("STOP")
    modifies service
    ensures applied == Some(BuilderConfig(ConfigOf(first).dnsPrimary, ConfigOf(first).dnsSecondary,
                                          ConfigOf(first).splitTunnel))
    ensures again == None && service.isRunning && service.vpnInterface == applied
    ensures service.Config() == ConfigOf(second)
  {
    var result;
    result, applied := service.OnStartCommand(Some(first), Established);
    result, again := service.OnStartCommand(Some(second), Established);
  }
}
